=== FILE: README.md ===
# GGP spectator server: a Dafny model of its validation and storage core

The spectator server stores General Game Playing matches. Match hosts push
them as JSON documents. Viewers read them back as JSON or as Atom feeds.

This project models the logic that decides what the server accepts and how
it stores what it accepts. All of it is written as pure Dafny functions over
an already-parsed JSON value, with lemmas about them.

- **Validation** (`MatchValidation.java`) has four checks:
  - creation checks for a new match;
  - identity invariants between the stored version and the submitted one;
  - forward-only rules for the optional arrays (`moves`, `states`, ...);
  - internal consistency of one version: the null scan, required fields,
    the key allow-list, the version-qualified game URL, lengths, per-player
    counts, errors, the time sequence and the host-key/signature rule.

  Every Java method that throws `ValidationException` becomes a function that
  returns `Result<(), Reason>`. A `JSONException` from a missing or mistyped
  field surfaces as `JsonError`, as the Java `catch` blocks rethrow it.
- **LegacyServlet** (`GGP_SpectatorServlet.java`) holds the servlet's own,
  older and weaker revision of the checks. It also models the order in which
  `doPost` applies them before it stores a submission. Lemmas compare the two
  revisions.
- **Routing** models how `doGet` takes a request path apart and what it
  answers for each kind of path.
- **MatchData** models four things:
  - the datastore key of a match: SHA-1, printed in hex, of a pre-hash text
    built from the match's identity and an attempt number;
  - the search for a free key;
  - the lookup of an existing match;
  - the record, with its append-only log of Atom entries and its set of
    channel clients.
- **Hex** is the `%02x` printer of the digest, with its inverse.
- **AtomKeyFeed** and **RecentMatchKeys** are the bounded logs of recent match
  keys (capacity 100). They share **BoundedLog**.
- **Json**, **Strings** and **Results** are the org.json accessors, the
  `java.lang.String`/`Integer` operations and the `Result`/`Option` types the
  other modules use.

Things outside the program are parameters:
- SHA-1 is a function `string -> Digest`. No such function is injective, so lemmas about keys assume only that it does not collide on the few texts they name, such as the pre-hash texts of the first attempts.
- Signature verification is a predicate on the document.
- `SymbolFactory` parsing is a function from an element to an optional list of items.
- `System.currentTimeMillis()` and `new Date()` are a `now` argument.
- The datastore is a map.

## Model

| member | source | states |
|---|---|---|
| Validation.ReasonableTime | src/ggp/spectator/MatchValidation.java:229-233 | a time passes exactly when 1200000000000 <= t <= now + 604800000; a negative time is refused as negative |
| Validation.CreationChecks | src/ggp/spectator/MatchValidation.java:31-45 | creation passes exactly when startTime is a number and a reasonable time, randomToken is a string of at least 12 UTF-16 units (a character outside the Basic Multilingual Plane counts twice), and matchHostPK comes with matchHostSignature; a reasonable start with a short token is refused as too short |
| Validation.VerifyEquals | src/ggp/spectator/MatchValidation.java:255-263 | passes exactly when the field is absent from both versions or holds the same plain value in both; a field that appears, disappears or changes is refused |
| Validation.VerifyAllEqual | src/ggp/spectator/MatchValidation.java:50-58 | a run of field comparisons passes exactly when every listed field is unchanged |
| Validation.UpdateInvariantChecks | src/ggp/spectator/MatchValidation.java:48-62 | passes exactly when each of the nine identity fields is unchanged |
| Validation.CompareElement | src/ggp/spectator/MatchValidation.java:273-297 | one element is kept exactly when it satisfies the rule's preservation predicate: the same symbol set, the same inner array, an equal plain value, or (for playerNamesFromHost) an empty value filled in |
| Validation.CompareFrom | src/ggp/spectator/MatchValidation.java:273-298 | the element loop passes exactly when every old element from index i on is preserved at its index |
| Validation.ArrayForward | src/ggp/spectator/MatchValidation.java:265-299 | an optional array passes exactly when it is absent from the old version, or is still an array of the same length (or, for growable arrays, no shorter) with every old element preserved; dropping it is refused as dropped |
| Validation.ForwardFrom | src/ggp/spectator/MatchValidation.java:67-73 | a run of array rules passes exactly when every rule is kept |
| Validation.CompletionCheck | src/ggp/spectator/MatchValidation.java:74-76 | passes exactly when a match both versions flag as completed is not flagged as not completed |
| Validation.UpdateForwardChecks | src/ggp/spectator/MatchValidation.java:65-80 | passes exactly when all seven array rules are kept and the match stays completed |
| Validation.NoNulls | src/ggp/spectator/MatchValidation.java:202-227 | the intended null scan passes exactly when no path of fields and indices leads to JSON null |
| Validation.NullFreeMeansNoNullReachable | src/ggp/spectator/MatchValidation.java:202-227 | the recursive scan and the path reading agree, in both directions |
| Validation.NoNullsAsWritten | src/ggp/spectator/MatchValidation.java:209-225 | the scan as written accepts every object unscanned and refuses only null and nulls inside arrays |
| Validation.NullScanCounterexample | src/ggp/spectator/MatchValidation.java:211-213 | a document with a null-valued field passes the scan as written and fails the intended scan |
| Validation.RequireFields | src/ggp/spectator/MatchValidation.java:92-100 | passes exactly when every listed field is present |
| Validation.AllowedKeys | src/ggp/spectator/MatchValidation.java:82-87 | passes exactly when every key is in the allow-list or starts with "x-" |
| Validation.StringArray | src/ggp/spectator/MatchValidation.java:235-247 | a row passes exactly when no element is an array, an object or null |
| Validation.MoveRows | src/ggp/spectator/MatchValidation.java:134-139 | passes exactly when every moves row from i on is an array of the first row's length with flat elements |
| Validation.GoalsCheck | src/ggp/spectator/MatchValidation.java:140-147 | goalValues, when present, are refused for a match marked not completed and otherwise must count one per player |
| Validation.NamesCheck | src/ggp/spectator/MatchValidation.java:148-152 | playerNamesFromHost, when present, must count one per player |
| Validation.PlayerChecks | src/ggp/spectator/MatchValidation.java:132-153 | with at least one move, passes exactly when the moves rows, goals and names agree on the number of players; with no moves nothing is checked |
| Validation.ErrorRows | src/ggp/spectator/MatchValidation.java:160-165 | passes exactly when every errors row from i on is a flat array of the first row's length |
| Validation.ErrorChecks | src/ggp/spectator/MatchValidation.java:154-172 | errors, when present, count one row per state, have flat rows of one length, and agree with the moves on the number of players |
| Validation.TimeSequence | src/ggp/spectator/MatchValidation.java:176-183 | the loop passes exactly when every state time is reasonable and no earlier than the one before it, starting from the start time |
| Validation.SignatureChecks | src/ggp/spectator/MatchValidation.java:185-196 | a host key requires a signed and verified document; a signature without a host key is refused |
| Validation.StructureChecks | src/ggp/spectator/MatchValidation.java:91-131 | with the corrected null scan: passes exactly when the document is null-free and its shape is right (see ShapeChecks) |
| Validation.StructureChecksAsWritten | src/ggp/spectator/MatchValidation.java:91-131 | with the null scan as written: passes exactly when the shape is right, whatever nulls the document's objects hold |
| Validation.ShapeChecks | src/ggp/spectator/MatchValidation.java:92-131 | passes exactly when the document has the nine required fields and only allowed keys, a version-qualified game URL, and states, stateTimes and moves arrays with at least one state, one time per state and one move less |
| Validation.ContentChecks | src/ggp/spectator/MatchValidation.java:132-196 | passes exactly when the player counts, the errors, the start time and state times (reasonable and never going backward) and the signature rule all hold |
| Validation.ConsistencyChecksAsWritten | src/ggp/spectator/MatchValidation.java:89-200 | the check as written passes exactly when the shape and the content rules hold, with no null scan of the document's objects |
| Validation.CorrectedScanOnlyAddsNullFreedom | src/ggp/spectator/MatchValidation.java:89-227 | the corrected check accepts exactly the null-free documents the check as written accepts |
| Validation.ConsistencyChecks | src/ggp/spectator/MatchValidation.java:89-200 | with the corrected null scan, passes exactly when the document is consistent: null-free, the nine required fields, allowed keys, a version-qualified game URL, states non-empty with one time per state and one move less, player counts, errors, reasonable sorted times and the signature rule |
| Validation.TimesNondecreasing | src/ggp/spectator/MatchValidation.java:174-183 | in an accepted time sequence every time is at least the start time and no later than any later time |
| Validation.ConsistentTimesSorted | src/ggp/spectator/MatchValidation.java:174-183 | a consistent document's state times are sorted, reasonable and no earlier than startTime |
| Validation.VersionWithTrailingSlash | src/ggp/spectator/MatchValidation.java:110-118 | a game URL ending in "/v", a version number and a slash is accepted |
| Validation.SingleCharacterVersionRejected | src/ggp/spectator/MatchValidation.java:112-113 | a URL ending right after a one-character version ("/v1") is refused |
| Validation.MultiDigitVersionReadsWithoutLastDigit | src/ggp/spectator/MatchValidation.java:112-113 | "/v12" without a slash is accepted, read as version 1 |
| Validation.VersionBeforeSurrogatePairRejected | src/ggp/spectator/MatchValidation.java:112-113 | a version followed by a character outside the Basic Multilingual Plane is refused, since cutting one UTF-16 unit leaves half a surrogate pair |
| Validation.UnversionedUrlRejected | src/ggp/spectator/MatchValidation.java:112 | a URL without "/v" is refused |
| Validation.HostKeyMayNotAppear | src/ggp/spectator/MatchValidation.java:53 | adding matchHostPK after creation is refused |
| Validation.IdentityPreserved | src/ggp/spectator/MatchValidation.java:48-62 | after an accepted update every present identity field holds the same value |
| Validation.CompletedNeverReopens | src/ggp/spectator/MatchValidation.java:74-76 | completed then not completed is refused |
| Validation.DroppedArrayRejected | src/ggp/spectator/MatchValidation.java:267 | dropping a tracked array is refused |
| Validation.TruncationRejected | src/ggp/spectator/MatchValidation.java:271-272 | shortening any tracked array is refused |
| Validation.AppendOnlyUpdateAccepted | src/ggp/spectator/MatchValidation.java:65-80 | an update that only appends to the growable arrays and keeps the fixed ones is accepted |
| Validation.ReorderedStateAccepted | src/ggp/spectator/MatchValidation.java:274-283 | states whose items are listed in another order count as the same state |
| Validation.ChangedMoveRowRejected | src/ggp/spectator/MatchValidation.java:285-289 | a changed moves row is refused |
| Validation.ShortTokenRejected | src/ggp/spectator/MatchValidation.java:35-37 | a three-character token is refused as too short |
| Validation.SurrogatePairTokenLongEnough | src/ggp/spectator/MatchValidation.java:35-37 | a token of six characters outside the Basic Multilingual Plane is twelve UTF-16 units long, and passes |
| LegacyServlet.CreationChecks | src/ggp/spectator/GGP_SpectatorServlet.java:175-191 | passes exactly when 1000000000000 <= startTime <= 2000000000000 and randomToken has at least 12 UTF-16 units |
| LegacyServlet.VerifyEquals | src/ggp/spectator/GGP_SpectatorServlet.java:253-265 | passes exactly when the field is absent from both or equal in both; a field in only one version, or with different values, is refused |
| LegacyServlet.VerifyAllEqual | src/ggp/spectator/GGP_SpectatorServlet.java:198-206 | the nine comparisons pass exactly when every field is unchanged |
| LegacyServlet.UpdateChecks | src/ggp/spectator/GGP_SpectatorServlet.java:193-217 | passes exactly when the nine fields are unchanged, the match stays completed, and the states array does not get shorter |
| LegacyServlet.RequireFields | src/ggp/spectator/GGP_SpectatorServlet.java:223-231 | passes exactly when every listed field is present; a refusal names a listed field |
| LegacyServlet.ConsistencyChecks | src/ggp/spectator/GGP_SpectatorServlet.java:219-245 | passes exactly when the nine fields are present and the states, stateTimes and moves arrays have lengths n, n and n - 1 |
| LegacyServlet.Post | src/ggp/spectator/GGP_SpectatorServlet.java:122-151 | paths other than "/" are ignored; repositories off the whitelist are refused; an existing match is updated exactly when the update and consistency checks pass; a new one is created only after the creation and consistency checks pass, and exactly then when the first (stored matches + 1) attempts have distinct keys; the key search runs out only after the checks pass and when two of those attempts share a key; nothing is stored otherwise |
| LegacyServlet.UpdatePath | src/ggp/spectator/GGP_SpectatorServlet.java:139-143 | for a stored key, the record takes the new document exactly when the update and consistency checks pass; otherwise the submission is refused |
| LegacyServlet.CreatePath | src/ggp/spectator/GGP_SpectatorServlet.java:144-147 | a new match is created only after the creation and consistency checks pass, under an empty key (store unchanged) or a fresh key (store gains exactly that key); when the first (stored matches + 1) attempts have distinct keys it is created exactly when the checks pass; the key search runs out only when two of those attempts share a key |
| LegacyServlet.UpdateKeepsIdentity | src/ggp/spectator/GGP_SpectatorServlet.java:140-144 | a stored update keeps every identity field of the stored match |
| LegacyServlet.UpdateKeepsStates | src/ggp/spectator/GGP_SpectatorServlet.java:211-213 | a stored update never shortens the states |
| LegacyServlet.NewConsistencyImpliesLegacy | src/ggp/spectator/GGP_SpectatorServlet.java:219-245 | what the newer consistency check accepts, the older one accepts |
| LegacyServlet.AsWrittenConsistencyImpliesLegacy | src/ggp/spectator/GGP_SpectatorServlet.java:219-245 | what the newer consistency check accepts with its null scan as written, the older one accepts |
| LegacyServlet.NewCreationImpliesLegacy | src/ggp/spectator/GGP_SpectatorServlet.java:179-187 | while now + one week <= 2000000000000, the newer creation check is the stricter one |
| LegacyServlet.NewUpdateImpliesLegacy | src/ggp/spectator/GGP_SpectatorServlet.java:193-217 | an update the newer invariant and forward checks accept is accepted by the older check when the stored version has states |
| LegacyServlet.LegacyAdmitsEarlierStart | src/ggp/spectator/GGP_SpectatorServlet.java:180 | a start time of 1000000000000 passes the older check and is refused by the newer one |
| LegacyServlet.LegacyAdmitsNullFields | src/ggp/spectator/GGP_SpectatorServlet.java:223-241 | a document whose fields are all null passes the older consistency check |
| Routing.Trim | src/ggp/spectator/GGP_SpectatorServlet.java:32-37 | the remaining text, followed by the feed suffix when the feed flag is set and by at most one slash, is the path after "/matches/" |
| Routing.SplitClient | src/ggp/spectator/GGP_SpectatorServlet.java:44-46 | the key and the id put back around "/clientId=" give the text again, and the marker after the key is the first one |
| Routing.ChannelRoute | src/ggp/spectator/GGP_SpectatorServlet.java:42-52 | a channel path registers key and id that rebuild it, or is a 404 |
| Routing.RouteOf | src/ggp/spectator/GGP_SpectatorServlet.java:25-57 | a path outside "/matches/" is a 404; a match path, channel path or token path rebuilds from what it is routed to |
| Routing.Respond | src/ggp/spectator/GGP_SpectatorServlet.java:58-68 | a match path whose match is stored answers with its document, or with its feed for a feed path; 404 exactly when the path is unroutable or the match is not stored; a token path, a channel path (with its key and id) and a viewer path each get their own answer, and only they do |
| Routing.MatchPathRoundTrip | src/ggp/spectator/GGP_SpectatorServlet.java:32-33 | "/matches/key" and "/matches/key/" show the match |
| Routing.FeedPathRoundTrip | src/ggp/spectator/GGP_SpectatorServlet.java:34-37 | "/matches/key/feed.atom", with or without a final slash, shows the feed |
| Routing.ChannelPathRoundTrip | src/ggp/spectator/GGP_SpectatorServlet.java:42-47 | "/matches/key/clientId=id/channel.js" registers id for key, whatever the id holds |
| Routing.ChannelPathWithoutClient | src/ggp/spectator/GGP_SpectatorServlet.java:48-50 | a channel path without "/clientId=" is a 404 |
| Routing.ForeignPathNotFound | src/ggp/spectator/GGP_SpectatorServlet.java:26-29 | a path outside "/matches/" is a 404 |
| Routing.ChannelTokenPath | src/ggp/spectator/GGP_SpectatorServlet.java:38-41 | "/matches/channel.js" issues a channel token |
| Hex.ByteText | src/ggp/spectator/MatchData.java:207 | a byte prints as two lower-case hex digits that read back as the byte |
| Hex.Encode | src/ggp/spectator/MatchData.java:205-209 | n bytes print as 2n lower-case hex digits |
| Hex.DecodeEncode | src/ggp/spectator/MatchData.java:205-209 | reading the printed text back gives the bytes |
| Hex.EncodeDecode | src/ggp/spectator/MatchData.java:205-209 | every even-length lower-case hex text is the print of what it reads as |
| Hex.EncodeInjective | src/ggp/spectator/MatchData.java:205-209 | different byte strings print differently |
| Hex.DigestText | src/ggp/spectator/MatchData.java:203-209 | a digest prints as 40 lower-case hex digits |
| Hex.DigestTextInjective | src/ggp/spectator/MatchData.java:203-209 | different digests print differently |
| Strings.IntText | src/ggp/spectator/MatchData.java:181 | a long printed in decimal: digits, after a minus exactly when the number is negative, with no leading zero (ParseIntText reads it back) |
| Strings.ParseIntText | src/ggp/spectator/MatchValidation.java:113 | Integer.parseInt reads a printed number back when it is within int range |
| Strings.Utf16Length | src/ggp/spectator/MatchValidation.java:35 | String.length() counts between one and two units per character: exactly one per character when none lies outside the Basic Multilingual Plane, exactly two when all do |
| MatchData.ComputeHash | src/ggp/spectator/MatchData.java:195-213 | a hash is 40 lower-case hex digits |
| MatchData.ReadIdentity | src/ggp/spectator/MatchData.java:178-185 | the identity can be read exactly when matchId and randomToken are strings, startTime a number, and matchHostPK a string if present; the host key is there exactly when matchHostPK is |
| MatchData.KeyAttempt | src/ggp/spectator/MatchData.java:178-191 | the key is "" exactly when the identity cannot be read, and otherwise the 40-digit hash of the pre-hash text |
| MatchData.PreHashInjective | src/ggp/spectator/MatchData.java:180-186 | equal pre-hash texts have the same attempt, start time and host-key presence, and equal field hashes |
| MatchData.KeyDeterminesAttempt | src/ggp/spectator/MatchData.java:178-191 | two readable matches get the same key exactly when they are the same match at the same attempt, provided the hash does not collide on their two pre-hash texts or on their hashed fields |
| MatchData.SameHashSameText | src/ggp/spectator/MatchData.java:195-213 | equal printed hashes of two texts the hash does not collide on mean equal texts |
| MatchData.DistinctKeysFromPreHash | src/ggp/spectator/MatchData.java:178-191 | the first n attempts have distinct keys when the hash does not collide on their pre-hash texts |
| MatchData.DistinctKeysAttainable | src/ggp/spectator/MatchData.java:178-191 | the distinct-keys assumption can hold: even a hash that keeps only the last character gives the first ten attempts of any readable match distinct keys |
| MatchData.NewKeyAttempt | src/ggp/spectator/MatchData.java:143-151 | the chosen attempt is usable, every earlier one is not, it is at most the number of stored matches, and one is chosen whenever the first (stored matches + 1) attempts have distinct keys |
| MatchData.SearchSucceeds | src/ggp/spectator/MatchData.java:146-149 | a search that fails only when none of the first (stored matches + 1) attempts is usable succeeds when their keys are distinct |
| MatchData.FreeAttemptExists | src/ggp/spectator/MatchData.java:146-149 | when the first (stored matches + 1) attempts have distinct keys, one of them is usable: there are more keys than stored matches |
| MatchData.NewKeyForJson | src/ggp/spectator/MatchData.java:143-151 | the new key is the key of the least usable attempt, at most the number of stored matches: "" (unreadable identity) or not yet stored; there is one whenever the first (stored matches + 1) attempts have distinct keys |
| MatchData.SameMatch | src/ggp/spectator/MatchData.java:162-171 | the comparison succeeds exactly when both documents carry the same readable identity |
| MatchData.LoadFrom | src/ggp/spectator/MatchData.java:153-176 | the lookup returns a stored record of the same match, or stops at a "" or unstored key, and every attempt it passed held another match |
| MatchData.LoadExisting | src/ggp/spectator/MatchData.java:153-176 | the lookup passes over every attempt holding another match; it returns the record of the same match at the first attempt not passed over, or reports not found there exactly because the key is "" or has nothing stored; an unreadable identity is not found at the first attempt |
| MatchData.Create | src/ggp/spectator/MatchData.java:39-53 | a new record holds the document, one Atom entry and no clients, under a key not yet stored, and is stored exactly when the key is not "", adding only that key to the store; a record is made whenever the first (stored matches + 1) attempts have distinct keys |
| MatchData.SetMatchJson | src/ggp/spectator/MatchData.java:72-76 | the document is replaced and exactly one Atom entry is appended, the earlier ones unchanged |
| MatchData.AddClientId | src/ggp/spectator/MatchData.java:55-58 | the client set grows by the id and nothing else changes |
| MatchData.AddClientIdIdempotent | src/ggp/spectator/MatchData.java:55-62 | adding a client twice is adding it once, and the count `NumClientIds` (numClientIDs) grows by at most one |
| MatchData.AtomFeed | src/ggp/spectator/MatchData.java:130-132 | the entries come newest first |
| MatchData.AtomFeedAfterUpdate | src/ggp/spectator/MatchData.java:72-76 | after an update the feed leads with the new entry followed by the old feed |
| MatchData.CreateThenLoad | src/ggp/spectator/MatchData.java:143-176 | when the first (stored matches + 1) attempts have distinct keys and none of them holds the same match, a match just created is found again by its own document at the attempt it was stored under |
| MatchData.LoadWalks | src/ggp/spectator/MatchData.java:155-171 | the lookup passes over attempts holding other matches and stops at the first that holds the same match |
| BoundedLog.Append | src/ggp/spectator/RecentMatchKeys.java:45-48 | the new item is last; below capacity the old log is a prefix; at capacity exactly the oldest item is dropped; the capacity is never exceeded |
| BoundedLog.AppendAllWindow | src/ggp/spectator/RecentMatchKeys.java:45-48 | any run of appends leaves exactly the latest cap items, oldest first |
| BoundedLog.Reverse | src/ggp/spectator/AtomKeyFeed.java:128-130 | the items come newest first |
| AtomKeyFeed.Increment | src/ggp/spectator/AtomKeyFeed.java:47 | the counter goes up by one, wrapping from the largest int to the smallest |
| AtomKeyFeed.NewFeed | src/ggp/spectator/AtomKeyFeed.java:28-35 | a fresh feed is valid, with three empty lists and a zero counter |
| AtomKeyFeed.Add | src/ggp/spectator/AtomKeyFeed.java:47-56 | the counter goes up by one; the three lists stay in step and within 100; the last entry is the key, the time and the new counter; each list drops exactly its oldest entry when full |
| AtomKeyFeed.AddRecentMatchKey | src/ggp/spectator/AtomKeyFeed.java:38-59 | the named feed is created if missing, holding just the key; an existing valid feed gets the key, date and new counter appended with the oldest entry dropped at capacity; other feeds are untouched, and every feed stays valid |
| AtomKeyFeed.GetRecentMatchKeys | src/ggp/spectator/AtomKeyFeed.java:61-69 | the keys in stored order, or none when the feed does not exist |
| AtomKeyFeed.JsonFeed | src/ggp/spectator/AtomKeyFeed.java:124-136 | an object holding only the feed key, mapped to the keys newest first |
| AtomKeyFeed.AtomFeed | src/ggp/spectator/AtomKeyFeed.java:98-111 | one entry per key, newest first, each with its own date and index |
| AtomKeyFeed.JsonFeedAfterAdd | src/ggp/spectator/AtomKeyFeed.java:49-51 | below capacity, the newest-first feed after an add is the new key followed by the old feed |
| AtomKeyFeed.FeedKeepsLatestKeys | src/ggp/spectator/AtomKeyFeed.java:49-56 | after any run of adds a feed stays valid and holds exactly the latest 100 keys, oldest first |
| RecentMatchKeys.GetRecentMatchKeys | src/ggp/spectator/RecentMatchKeys.java:53-60 | the stored list, or the empty list when none is stored |
| RecentMatchKeys.AddRecentMatchKey | src/ggp/spectator/RecentMatchKeys.java:28-51 | the key is last; the list never exceeds 100; below capacity the old list is a prefix; at capacity exactly the oldest key is dropped |
| RecentMatchKeys.KeepsLatestKeys | src/ggp/spectator/RecentMatchKeys.java:45-48 | from nothing, any run of adds leaves exactly the latest 100 keys, oldest first |

## Left out

- HTTP plumbing is not modelled: CORS headers, `doOptions`, static pages, channel-token creation, `registerChannelForMatch`, `pingChannelClients` and the PubSubHubbub ping. These are I/O and App Engine services.
- `PuSHPublisher.java`, `SimpleMapper.java` and the mapreduce mappers are not modelled. They iterate the datastore and post over the network.
- The digest itself (`MessageDigest`), `SignableJSON` and `SymbolFactory` are foreign libraries, so they are parameters. The symbol parser receives the element rather than its printed text.
- JSON text parsing, `toString`, and floating-point numbers are not modelled; numbers are integers. A stored text that no longer parses, which makes `getMatchJSON` return null, cannot occur in the model.
- Coercions in org.json are not modelled: `getString` accepts only strings and `getLong` only numbers. The real library also converts numeric strings and other types.
- JDO persistence, `Text`, `Date`, RFC 3339 formatting and the Atom XML layout are not modelled. An Atom entry is the document and its time; a feed is the ordered list of entries.
- Races between concurrent read-modify-write cycles are not modelled.
- `getRepositoryServerFromJSON`, `getKeyFromJSON`, `loadMatchData` and `Persistence` are not part of this model. `Post` receives the repository and the lookup key, and a route looks the key up in the store map.
- `doPost` calls a String-taking `MatchData` constructor, while the `MatchData` modelled here takes a parsed object. `Post` passes the parsed document.
- `Validation.CompareElement`: inner arrays are compared structurally instead of by their printed text. The two agree on the flat rows the consistency check admits.
- `Validation.AllowedKeys`: reports all unexpected keys at once, instead of the first one the Java iterator happens to reach.
- `MatchData.LoadFrom`: the lookup loop may run forever in Java; it is given a fuel bound, and `GaveUp` stands for running out of fuel.
- `MatchData.NewKeyAttempt`: Java keeps trying attempts until one is usable; the model tries one more attempt than there are stored matches and returns `None` after that. This is enough when those attempts have distinct keys. If the hash collides among them, the model gives up where Java might find a later attempt.
- `MatchData.FreeAttemptExists`: inherits that bound. It promises a usable attempt only when the first (stored matches + 1) attempts have distinct keys.
- `MatchData.NewKeyForJson`: inherits that bound. It promises a key only when those attempts have distinct keys.
- `MatchData.Create`: inherits that bound. It promises a record only when those attempts have distinct keys.
- `MatchData.CreateThenLoad`: inherits that bound. Its round trip assumes those attempts have distinct keys.
- `LegacyServlet.Post`: promises "created exactly when the checks pass" only when those attempts have distinct keys. Otherwise `KeySearchExhausted` may stand where Java would keep searching.
- `LegacyServlet.CreatePath`: the same bound as `LegacyServlet.Post`.
- `Validation.StructureChecks` uses the corrected null scan (see Findings), so it refuses documents the code as written accepts, such as one with a field `"x-note": null`. `Validation.StructureChecksAsWritten` keeps the code as written.
- `Validation.StructureChecks` reads the game URL's version with ASCII digits only. `Integer.parseInt` reads any Unicode decimal digit through `Character.digit`, so ".../v١/" passes the code and is refused here. That digit table depends on the Java release.
- `Validation.ShapeChecks` shares that version reading, so it too refuses ".../v١/", which the code accepts.
- `Validation.StructureChecksAsWritten` shares that version reading through `Validation.ShapeChecks`: it keeps the code's null scan, but reads the version with ASCII digits only.
- `Validation.ConsistencyChecksAsWritten` shares that version reading too, for the same reason.
- `Validation.ConsistencyChecks` inherits both gaps from `Validation.StructureChecks`. `Validation.ConsistencyChecksAsWritten` keeps the code's null scan, and `Validation.CorrectedScanOnlyAddsNullFreedom` states how the two differ.
- `AtomKeyFeed.Add`: the date of an entry and the feed's `lastUpdated` are the same `now`, while Java calls `new Date()` twice.

The model keeps these behaviours of the code, which a reader might not expect:
- A game URL ending in "/v1" with no final slash is refused. The code drops the last character before it parses the version, so "/v12" passes as version 1.
- `gameRulesheetHash` is one of the nine identity fields but is missing from the key allow-list. A document that carries it fails the consistency check.
- Goal and name counts are checked only when there is at least one move.
- The rows of `moves` and `errors` may hold numbers and booleans, not only strings.

## Findings

| source | as written | input that shows it | evidently intended | confidence | as-written member | corrected member |
|---|---|---|---|---|---|---|
| src/ggp/spectator/MatchValidation.java:211-213 | `JSONObject.getNames(o)` is called with `o` typed `Object`. Java therefore picks the reflective overload, which lists the public fields of class `JSONObject`: just "NULL", which the loop then skips. No object is ever scanned, so nulls in the document's fields pass. | the document `{"x-note": null}` | every value of every object is scanned, so any null anywhere is refused | not executed; assumes `external.JSON` keeps org.json's two `getNames` overloads | Validation.NullScanCounterexample | Validation.NoNulls |

The consistency check (`Validation.ConsistencyChecks`) uses the corrected scan.
`Validation.NoNullsAsWritten` keeps the scan as written, and `Validation.ConsistencyChecksAsWritten` the whole check as written.
`Validation.CorrectedScanOnlyAddsNullFreedom` proves that the two checks differ only in the absence of nulls.
`Validation.NullFreeMeansNoNullReachable` proves that the corrected scan refuses exactly the documents in which some path leads to null.

=== FILE: atomkeyfeed.dfy ===
/** `AtomKeyFeed`: a named feed of the most recent match keys, kept as three
    parallel lists (key, date, running index) plus a running counter, and
    served as JSON or Atom, newest first. Dates are milliseconds supplied by
    the caller; the datastore is a map from feed key to feed. */
module AtomKeyFeed {
  import opened Results
  import opened Json
  import opened Strings
  import BoundedLog

  /** `kRecentMatchKeysToRecord`. */
  const Capacity: nat := 100

  /** A Java `int`. */
  type JavaInt = n: int | IntMin <= n <= IntMax

  /** `nCount += 1` on a Java `int`: two's-complement wrap-around. */
  function Increment(n: JavaInt): (r: JavaInt)
    ensures n < IntMax ==> r == n + 1
    ensures n == IntMax ==> r == IntMin
  {
    (n - IntMin + 1) % 0x1_0000_0000 + IntMin
  }

  datatype Feed = Feed(
    feedKey: string,
    keys: seq<string>,
    dates: seq<int>,
    indices: seq<JavaInt>,
    lastUpdated: int,
    count: JavaInt)

  /** The three lists stay in step and within capacity; the newest index is
      the counter, and each index follows the one before it. */
  predicate Valid(f: Feed)
  {
    && |f.keys| == |f.dates| == |f.indices| <= Capacity
    && (0 < |f.indices| ==> f.indices[|f.indices| - 1] == f.count)
    && forall i :: 0 < i < |f.indices| ==> f.indices[i] == Increment(f.indices[i - 1])
  }

  /** The constructor: three empty lists and a zero counter. */
  function NewFeed(feedKey: string, now: int): (f: Feed)
    ensures Valid(f)
    ensures f.feedKey == feedKey && f.keys == [] && f.dates == [] && f.indices == [] && f.count == 0
  {
    Feed(feedKey, [], [], [], now, 0)
  }

  /** The body of `addRecentMatchKey` once the feed is loaded or created. */
  function Add(f: Feed, matchKey: string, now: int): (r: Feed)
    ensures r.feedKey == f.feedKey && r.lastUpdated == now
    ensures r.count == Increment(f.count)
    ensures Valid(f) ==> Valid(r)
    ensures Valid(f) ==>
              && 0 < |r.keys|
              && r.keys[|r.keys| - 1] == matchKey
              && r.dates[|r.dates| - 1] == now
              && r.indices[|r.indices| - 1] == r.count
    ensures Valid(f) ==>
              && r.keys == BoundedLog.Append(f.keys, matchKey, Capacity)
              && r.dates == BoundedLog.Append(f.dates, now, Capacity)
              && r.indices == BoundedLog.Append(f.indices, r.count, Capacity)
  {
    var n := Increment(f.count);
    var keys := f.keys + [matchKey];
    var dates := f.dates + [now];
    var indices := f.indices + [n];
    if |keys| > Capacity then
      Feed(f.feedKey, keys[1..], if |dates| > 0 then dates[1..] else dates,
           if |indices| > 0 then indices[1..] else indices, now, n)
    else
      Feed(f.feedKey, keys, dates, indices, now, n)
  }

  /** The datastore's feeds, by feed key. */
  type Feeds = map<string, Feed>

  predicate AllValid(feeds: Feeds)
  {
    forall k :: k in feeds ==> Valid(feeds[k]) && feeds[k].feedKey == k
  }

  /** `addRecentMatchKey`: loads the feed or starts a fresh one, adds the key, stores it back. */
  function AddRecentMatchKey(feeds: Feeds, feedKey: string, matchKey: string, now: int): (r: Feeds)
    ensures feedKey in r && r.Keys == feeds.Keys + {feedKey}
    ensures forall k :: k in feeds && k != feedKey ==> r[k] == feeds[k]
    ensures feedKey !in feeds ==> r[feedKey].keys == [matchKey] && r[feedKey].count == 1
    ensures AllValid(feeds) && feedKey in feeds ==>
      && r[feedKey].keys == BoundedLog.Append(feeds[feedKey].keys, matchKey, Capacity)
      && r[feedKey].dates == BoundedLog.Append(feeds[feedKey].dates, now, Capacity)
      && r[feedKey].count == Increment(feeds[feedKey].count)
      && r[feedKey].indices == BoundedLog.Append(feeds[feedKey].indices, r[feedKey].count, Capacity)
      && r[feedKey].lastUpdated == now
    ensures AllValid(feeds) ==> AllValid(r)
  {
    var current := if feedKey in feeds then feeds[feedKey] else NewFeed(feedKey, now);
    feeds[feedKey := Add(current, matchKey, now)]
  }

  /** `getRecentMatchKeys`: a copy of the keys, oldest first; `None` for Java's null. */
  function GetRecentMatchKeys(feeds: Feeds, feedKey: string): (r: Option<seq<string>>)
    ensures r.None? <==> feedKey !in feeds
    ensures r.Some? ==> r.value == feeds[feedKey].keys
  {
    if feedKey in feeds then Some(feeds[feedKey].keys) else None
  }

  /** The JSON strings of `ks`, in order. */
  function JsonStrings(ks: seq<string>): (r: seq<JValue>)
    ensures |r| == |ks| && forall i :: 0 <= i < |ks| ==> r[i] == JStr(ks[i])
  {
    seq(|ks|, i requires 0 <= i < |ks| => JStr(ks[i]))
  }

  /** `getJsonFeed`: an object mapping the feed key to its keys, newest first. */
  function JsonFeed(feeds: Feeds, feedKey: string): (r: Option<JValue>)
    ensures r.None? <==> feedKey !in feeds
    ensures r.Some? ==>
              && r.value.JObj? && r.value.fields.Keys == {feedKey}
              && r.value.fields[feedKey].JArr?
              && var keys := feeds[feedKey].keys;
                 var out := r.value.fields[feedKey].elems;
                 |out| == |keys| && forall i :: 0 <= i < |keys| ==> out[i] == JStr(keys[|keys| - 1 - i])
  {
    if feedKey !in feeds then None
    else Some(JObj(map[feedKey := JArr(JsonStrings(BoundedLog.Reverse(feeds[feedKey].keys)))]))
  }

  /** One `<entry>` of the Atom feed: the match key, its date and its running index. */
  datatype AtomEntry = AtomEntry(matchKey: string, date: int, index: int)

  /** The entries `getAtomFeed` writes, in the order it writes them. */
  function AtomFeed(feeds: Feeds, feedKey: string): (r: Option<seq<AtomEntry>>)
    requires feedKey in feeds ==> Valid(feeds[feedKey])
    ensures r.None? <==> feedKey !in feeds
    ensures r.Some? ==> var f := feeds[feedKey]; var n := |f.keys|;
      |r.value| == n && forall i :: 0 <= i < n ==>
        r.value[i] == AtomEntry(f.keys[n - 1 - i], f.dates[n - 1 - i], f.indices[n - 1 - i])
  {
    if feedKey !in feeds then None
    else
      var f := feeds[feedKey];
      var n := |f.keys|;
      Some(seq(n, i requires 0 <= i < n => AtomEntry(f.keys[n - 1 - i], f.dates[n - 1 - i], f.indices[n - 1 - i])))
  }

  /** Below capacity, the newest-first feed after an add is the added key
      followed by the whole previous feed. */
  lemma JsonFeedAfterAdd(feeds: Feeds, feedKey: string, matchKey: string, now: int)
    requires AllValid(feeds) && feedKey in feeds && |feeds[feedKey].keys| < Capacity
    ensures var before := JsonFeed(feeds, feedKey).value.fields[feedKey].elems;
      JsonFeed(AddRecentMatchKey(feeds, feedKey, matchKey, now), feedKey).value.fields[feedKey].elems
        == [JStr(matchKey)] + before
  {
    var f := feeds[feedKey];
    var r := AddRecentMatchKey(feeds, feedKey, matchKey, now);
    assert r[feedKey] == Add(f, matchKey, now);
    assert r[feedKey].keys == f.keys + [matchKey] by {
      assert Valid(f);
    }
    BoundedLog.ReverseAppend(f.keys, matchKey);
    JsonStringsCons(matchKey, BoundedLog.Reverse(f.keys));
  }

  /** Putting a key in front puts its JSON string in front. */
  lemma JsonStringsCons(k: string, ks: seq<string>)
    ensures JsonStrings([k] + ks) == [JStr(k)] + JsonStrings(ks)
  {
  }

  /** Adds the keys of `ks` to feed `f`, one at a time, all at time `now`. */
  function AddAll(f: Feed, ks: seq<string>, now: int): Feed
    decreases |ks|
  {
    if |ks| == 0 then f else Add(AddAll(f, ks[..|ks| - 1], now), ks[|ks| - 1], now)
  }

  /** After any run of adds, a feed holds exactly the most recent hundred keys, oldest first. */
  lemma {:induction false} FeedKeepsLatestKeys(f: Feed, ks: seq<string>, now: int)
    requires Valid(f)
    ensures Valid(AddAll(f, ks, now))
    ensures AddAll(f, ks, now).keys == BoundedLog.Window(f.keys + ks, Capacity)
    decreases |ks|
  {
    if |ks| > 0 {
      var front, x := ks[..|ks| - 1], ks[|ks| - 1];
      assert ks == front + [x];
      assert f.keys + ks == (f.keys + front) + [x];
      FeedKeepsLatestKeys(f, front, now);
      assert AddAll(f, ks, now) == Add(AddAll(f, front, now), x, now);
      BoundedLog.WindowStep(f.keys + front, x, Capacity);
    } else {
      assert f.keys + ks == f.keys;
    }
  }
}

=== FILE: boundedlog.dfy ===
/** Bounded, append-only logs of recent items, as `AtomKeyFeed` and
    `RecentMatchKeys` keep them: append at the end, and when that exceeds the
    capacity drop the single oldest entry at the front. */
module BoundedLog {

  /** `list.add(x); if (list.size() > cap) list.remove(0);` */
  function Append<T>(log: seq<T>, x: T, cap: nat): (r: seq<T>)
    ensures |log| <= cap ==> |r| <= cap
    ensures 0 < cap ==> 0 < |r| && r[|r| - 1] == x
    ensures |log| < cap ==> |r| == |log| + 1 && r[..|log|] == log
    ensures 0 < |log| == cap ==> |r| == cap && r[..cap - 1] == log[1..]
  {
    var grown := log + [x];
    if |grown| > cap then grown[1..] else grown
  }

  /** The last `cap` items of `s` (all of `s` when it is shorter). */
  function Window<T>(s: seq<T>, cap: nat): seq<T>
  {
    if |s| <= cap then s else s[|s| - cap..]
  }

  /** The log after appending the items of `xs`, one at a time, in order. */
  function AppendAll<T>(log: seq<T>, xs: seq<T>, cap: nat): seq<T>
    decreases |xs|
  {
    if |xs| == 0 then log
    else Append(AppendAll(log, xs[..|xs| - 1], cap), xs[|xs| - 1], cap)
  }

  /** One append moves the window of the most recent items along by one. */
  lemma WindowStep<T>(s: seq<T>, x: T, cap: nat)
    ensures Append(Window(s, cap), x, cap) == Window(s + [x], cap)
  {
    if cap == 0 {
      assert Window(s + [x], cap) == [];
    } else if |s| < cap {
      assert Window(s, cap) == s;
    } else {
      var w := Window(s, cap);
      assert |w| == cap;
      assert (w + [x])[1..] == (s + [x])[|s| + 1 - cap..];
    }
  }

  /** Starting from a log within capacity, any run of appends leaves exactly
      the most recent `cap` items, oldest first. */
  lemma {:induction false} AppendAllWindow<T>(log: seq<T>, xs: seq<T>, cap: nat)
    requires |log| <= cap
    ensures AppendAll(log, xs, cap) == Window(log + xs, cap)
    decreases |xs|
  {
    if |xs| == 0 {
      assert log + xs == log;
    } else {
      var front, x := xs[..|xs| - 1], xs[|xs| - 1];
      assert xs == front + [x];
      assert log + xs == (log + front) + [x];
      AppendAllWindow(log, front, cap);
      WindowStep(log + front, x, cap);
    }
  }

  /** The items newest first, as the feeds' backwards loops emit them. */
  function Reverse<T>(s: seq<T>): (r: seq<T>)
    ensures |r| == |s|
    ensures forall i :: 0 <= i < |s| ==> r[i] == s[|s| - 1 - i]
  {
    if |s| == 0 then [] else [s[|s| - 1]] + Reverse(s[..|s| - 1])
  }

  /** Appending an item puts it first in the newest-first order, ahead of the rest. */
  lemma ReverseAppend<T>(s: seq<T>, x: T)
    ensures Reverse(s + [x]) == [x] + Reverse(s)
  {
    assert (s + [x])[..|s|] == s;
  }
}

=== FILE: hex.dfy ===
/** The hexadecimal half of `MatchData.computeHash`: each byte of a SHA-1
    digest printed with `Formatter`'s "%02x". The digest itself is not part of
    this model. */
module Hex {
  import opened Results

  /** A Java `byte`: a signed 8-bit value. */
  newtype JavaByte = b: int | -128 <= b < 128

  /** A SHA-1 digest: twenty bytes. */
  type Digest = d: seq<JavaByte> | |d| == 20 witness seq(20, _ => 0 as JavaByte)

  const Digits: string := "0123456789abcdef"

  predicate IsHexDigit(c: char)
  {
    '0' <= c <= '9' || 'a' <= c <= 'f'
  }

  function DigitValue(c: char): (v: nat)
    requires IsHexDigit(c)
    ensures v < 16 && Digits[v] == c
  {
    if c <= '9' then (c as int - '0' as int) else (c as int - 'a' as int + 10)
  }

  function HexDigit(v: nat): (c: char)
    requires v < 16
    ensures IsHexDigit(c) && DigitValue(c) == v
  {
    Digits[v]
  }

  /** The value `Formatter` prints for a byte under "%x": a negative byte
      is shown as its two's-complement bit pattern, that is plus 256. */
  function Unsigned(b: JavaByte): (u: nat)
    ensures u < 256
    ensures u == b as int || u == b as int + 256
  {
    if b < 0 then b as int + 256 else b as int
  }

  /** The byte whose unsigned reading is `u`. */
  function Signed(u: nat): (b: JavaByte)
    requires u < 256
    ensures Unsigned(b) == u
  {
    if u < 128 then u as JavaByte else (u - 256) as JavaByte
  }

  /** "%02x" applied to one byte: exactly two lower-case digits, high nibble first. */
  function ByteText(b: JavaByte): (s: string)
    ensures |s| == 2 && IsHexDigit(s[0]) && IsHexDigit(s[1])
    ensures Signed(16 * DigitValue(s[0]) + DigitValue(s[1])) == b
  {
    var u := Unsigned(b);
    [HexDigit(u / 16), HexDigit(u % 16)]
  }

  /** The digest loop of `computeHash`: the bytes' texts, in order. */
  function Encode(bytes: seq<JavaByte>): (s: string)
    ensures |s| == 2 * |bytes|
    ensures forall i :: 0 <= i < |s| ==> IsHexDigit(s[i])
  {
    if |bytes| == 0 then "" else ByteText(bytes[0]) + Encode(bytes[1..])
  }

  /** Reads a hex text back into bytes; `None` for an odd length or a
      character outside 0-9a-f. */
  function Decode(s: string): Option<seq<JavaByte>>
    decreases |s|
  {
    if |s| == 0 then Some([])
    else if |s| == 1 || !IsHexDigit(s[0]) || !IsHexDigit(s[1]) then None
    else
      match Decode(s[2..])
      case None => None
      case Some(rest) => Some([Signed(16 * DigitValue(s[0]) + DigitValue(s[1]))] + rest)
  }

  /** Decoding the text of any byte string gives the bytes back. */
  lemma {:induction false} DecodeEncode(bytes: seq<JavaByte>)
    ensures Decode(Encode(bytes)) == Some(bytes)
  {
    if |bytes| > 0 {
      DecodeEncode(bytes[1..]);
      DecodeAfterByte(bytes[0], Encode(bytes[1..]));
      assert [bytes[0]] + bytes[1..] == bytes;
    }
  }

  /** A byte's text in front of a decodable text adds that byte in front of its decoding. */
  lemma DecodeAfterByte(b: JavaByte, rest: string)
    requires Decode(rest).Some?
    ensures Decode(ByteText(b) + rest) == Some([b] + Decode(rest).value)
  {
    var t := ByteText(b);
    var s := t + rest;
    assert s[2..] == rest;
    assert s[0] == t[0] && s[1] == t[1];
    assert Signed(16 * DigitValue(s[0]) + DigitValue(s[1])) == b;
  }

  /** Two hex digits are the text of the byte they denote. */
  lemma ByteTextOfDigits(c0: char, c1: char)
    requires IsHexDigit(c0) && IsHexDigit(c1)
    ensures ByteText(Signed(16 * DigitValue(c0) + DigitValue(c1))) == [c0, c1]
  {
    var hi, lo := DigitValue(c0), DigitValue(c1);
    var u := 16 * hi + lo;
    assert u / 16 == hi && u % 16 == lo;
    assert Unsigned(Signed(u)) == u;
  }

  /** Every text the decoder accepts is the encoding of what it decodes to:
      the encoder's image is exactly the even-length lower-case hex texts. */
  lemma {:induction false} EncodeDecode(s: string)
    requires Decode(s).Some?
    ensures Encode(Decode(s).value) == s
    decreases |s|
  {
    if |s| > 0 {
      var b := DecodeStep(s);
      var rest := Decode(s[2..]).value;
      EncodeDecode(s[2..]);
      EncodeCons(b, rest);
      assert s == [s[0], s[1]] + s[2..];
    }
  }

  /** A non-empty text the decoder accepts starts with the text of a byte,
      and decodes to that byte followed by the decoding of the rest. */
  lemma DecodeStep(s: string) returns (b: JavaByte)
    requires |s| > 0 && Decode(s).Some?
    ensures |s| >= 2 && ByteText(b) == [s[0], s[1]] && Decode(s[2..]).Some?
    ensures Decode(s).value == [b] + Decode(s[2..]).value
  {
    b := Signed(16 * DigitValue(s[0]) + DigitValue(s[1]));
    ByteTextOfDigits(s[0], s[1]);
  }

  /** The text of a byte string is the text of its first byte followed by the text of the rest. */
  lemma EncodeCons(b: JavaByte, rest: seq<JavaByte>)
    ensures Encode([b] + rest) == ByteText(b) + Encode(rest)
  {
    assert ([b] + rest)[1..] == rest;
  }

  /** Distinct digests print differently. */
  lemma EncodeInjective(a: seq<JavaByte>, b: seq<JavaByte>)
    requires Encode(a) == Encode(b)
    ensures a == b
  {
    DecodeEncode(a);
    DecodeEncode(b);
  }

  /** A digest prints as forty lower-case hex digits. */
  function DigestText(d: Digest): (s: string)
    ensures |s| == 40
    ensures forall i :: 0 <= i < |s| ==> IsHexDigit(s[i])
  {
    Encode(d)
  }

  /** Distinct digests have distinct texts. */
  lemma DigestTextInjective(d1: Digest, d2: Digest)
    ensures DigestText(d1) == DigestText(d2) ==> d1 == d2
  {
    if DigestText(d1) == DigestText(d2) {
      EncodeInjective(d1, d2);
    }
  }
}

=== FILE: json.dfy ===
/** A parsed JSON document and the org.json accessors the server calls on it.

    Text parsing is not modelled: every document is already a `JValue`. An
    accessor that would throw `JSONException` returns `Err` with the
    exception's message instead. */
module Json {
  import opened Results
  import Strings

  /** A JSON value. Numbers are integers; JSON floating point is not part of this model. */
  datatype JValue =
    | JNull
    | JBool(b: bool)
    | JNum(n: int)
    | JStr(s: string)
    | JArr(elems: seq<JValue>)
    | JObj(fields: map<string, JValue>)

  /** A `JSONObject`: its keys and their values. */
  type JObject = map<string, JValue>

  /** Neither a `JSONArray` nor a `JSONObject`. */
  predicate IsScalar(v: JValue)
  {
    !v.JArr? && !v.JObj?
  }

  /** Java's `Object.equals` between values taken from two separately parsed
      documents: strings, numbers, booleans and `JSONObject.NULL` compare by
      value, while `JSONArray` and `JSONObject` keep identity equality and so
      never equal a value from another parse. */
  predicate JavaEquals(a: JValue, b: JValue)
  {
    IsScalar(a) && a == b
  }

  /** `x.toString().isEmpty()`: only the empty string prints as nothing. */
  predicate PrintsEmpty(v: JValue)
  {
    v == JStr("")
  }

  // ---------------------------------------------------------------------
  // Coercions shared by the keyed and the indexed accessors

  function AsString(v: JValue, what: string): Result<string, string>
  {
    if v.JStr? then Ok(v.s) else Err(what + " is not a string.")
  }

  function AsLong(v: JValue, what: string): Result<int, string>
  {
    if v.JNum? then Ok(v.n) else Err(what + " is not a number.")
  }

  function AsArray(v: JValue, what: string): Result<seq<JValue>, string>
  {
    if v.JArr? then Ok(v.elems) else Err(what + " is not a JSONArray.")
  }

  /** The characters that `Character.toUpperCase`/`toLowerCase` identify with
      the lower-case ASCII letter `lower`, as `String.equalsIgnoreCase` uses them. */
  predicate SameLetterIgnoringCase(c: char, lower: char)
    requires 'a' <= lower <= 'z'
  {
    c == lower || c as int == lower as int - 32 || (lower == 's' && c == 'ſ')
  }

  /** `s.equalsIgnoreCase(word)` for a lower-case ASCII `word`. */
  predicate EqualsIgnoreCase(s: string, word: string)
    requires forall i :: 0 <= i < |word| ==> 'a' <= word[i] <= 'z'
  {
    |s| == |word| && forall i :: 0 <= i < |s| ==> SameLetterIgnoringCase(s[i], word[i])
  }

  /** `getBoolean`: a boolean, or a string spelling "true"/"false" in any case. */
  function AsBoolean(v: JValue, what: string): (r: Result<bool, string>)
    ensures v.JBool? ==> r == Ok(v.b)
    ensures !v.JBool? && !v.JStr? ==> r.Err?
  {
    if v == JBool(false) || (v.JStr? && EqualsIgnoreCase(v.s, "false")) then Ok(false)
    else if v == JBool(true) || (v.JStr? && EqualsIgnoreCase(v.s, "true")) then Ok(true)
    else Err(what + " is not a Boolean.")
  }

  // ---------------------------------------------------------------------
  // JSONObject accessors

  function Key(k: string): string
  {
    "JSONObject[\"" + k + "\"]"
  }

  /** `JSONObject.get`: a missing key throws. A key mapped to `JSONObject.NULL` is present. */
  function Get(o: JObject, k: string): Result<JValue, string>
  {
    if k in o then Ok(o[k]) else Err(Key(k) + " not found.")
  }

  function GetString(o: JObject, k: string): Result<string, string>
  {
    var v :- Get(o, k);
    AsString(v, Key(k))
  }

  function GetLong(o: JObject, k: string): Result<int, string>
  {
    var v :- Get(o, k);
    AsLong(v, Key(k))
  }

  function GetBoolean(o: JObject, k: string): Result<bool, string>
  {
    var v :- Get(o, k);
    AsBoolean(v, Key(k))
  }

  function GetArray(o: JObject, k: string): Result<seq<JValue>, string>
  {
    var v :- Get(o, k);
    AsArray(v, Key(k))
  }

  // ---------------------------------------------------------------------
  // JSONArray accessors

  function Index(i: nat): string
  {
    "JSONArray[" + Strings.IntText(i) + "]"
  }

  /** `JSONArray.get(i)`: an index out of range throws. */
  function At(a: seq<JValue>, i: nat): Result<JValue, string>
  {
    if i < |a| then Ok(a[i]) else Err(Index(i) + " not found.")
  }

  function ArrayAt(a: seq<JValue>, i: nat): Result<seq<JValue>, string>
  {
    var v :- At(a, i);
    AsArray(v, Index(i))
  }

  function LongAt(a: seq<JValue>, i: nat): Result<int, string>
  {
    var v :- At(a, i);
    AsLong(v, Index(i))
  }

  // ---------------------------------------------------------------------
  // Paths into a document

  /** One step down into a document: an object's field or an array's element. */
  datatype Step = Field(key: string) | Element(index: nat)

  /** The value reached from `v` by following `path`, if every step exists. */
  function Follow(v: JValue, path: seq<Step>): Option<JValue>
    decreases |path|
  {
    if |path| == 0 then Some(v)
    else match path[0]
      case Field(k) => if v.JObj? && k in v.fields then Follow(v.fields[k], path[1..]) else None
      case Element(i) => if v.JArr? && i < |v.elems| then Follow(v.elems[i], path[1..]) else None
  }
}

=== FILE: legacy.dfy ===
/** The servlet's own, older revision of the validation checks, and the order
    in which `doPost` applies them before it stores a submission.

    These checks are weaker than those of `Validation`: a wider start-time
    window, no signature rule, no forward rules beyond "the number of states
    does not decrease", and only the length rules for consistency. They are
    modelled on their own and compared with the newer revision by lemmas. */
module LegacyServlet {
  import opened Results
  import opened Json
  import Strings
  import Validation
  import MatchData

  /** Why the older checks refuse a document: one case per `IOException` they raise. */
  datatype Refusal =
    | JsonError(message: string)
    | UnreasonableStart
    | TokenTooShort
    | FieldAppeared(field: string)
    | FieldChanged(field: string)
    | CompletedToNotCompleted
    | StatesDecreased(oldLength: nat, newLength: nat)
    | MissingField(field: string)
    | StateTimesMismatch(states: nat, stateTimes: nat)
    | MovesMismatch(states: nat, moves: nat)

  type Check = Result<(), Refusal>

  /** A `JSONException` caught and rethrown as "Could not parse JSON". */
  function Parsed<T>(r: Result<T, string>): Result<T, Refusal>
  {
    r.MapError(m => JsonError(m))
  }

  /** The older window for start times, in milliseconds since the Unix epoch. */
  const EarliestStart: int := 1000000000000
  const LatestStart: int := 2000000000000

  // =======================================================================
  // Creation

  /** `performCreationValidationChecks` (servlet revision). */
  function CreationChecks(doc: JObject): (r: Check)
    ensures r.Ok? <==>
      && "startTime" in doc && doc["startTime"].JNum?
      && EarliestStart <= doc["startTime"].n <= LatestStart
      && "randomToken" in doc && doc["randomToken"].JStr? && Strings.Utf16Length(doc["randomToken"].s) >= 12
    ensures ("startTime" in doc && doc["startTime"].JNum?
             && !(EarliestStart <= doc["startTime"].n <= LatestStart)) ==> r == Err(UnreasonableStart)
  {
    var start :- Parsed(GetLong(doc, "startTime"));
    var _ :- Need(EarliestStart <= start <= LatestStart, UnreasonableStart);
    var token :- Parsed(GetString(doc, "randomToken"));
    Need(Strings.Utf16Length(token) >= 12, TokenTooShort)
  }

  // =======================================================================
  // Updates

  /** `verifyEquals` (servlet revision). A field the new version lacks makes
      `newer.get` throw, which surfaces as a JSON error. */
  function VerifyEquals(prev: JObject, next: JObject, k: string): (r: Check)
    ensures r.Ok? <==> Validation.Unchanged(prev, next, k)
    ensures k !in prev && k in next ==> r == Err(FieldAppeared(k))
    ensures k in prev && k !in next ==> r.Err? && r.error.JsonError?
    ensures k in prev && k in next && prev[k] != next[k] ==> r == Err(FieldChanged(k))
  {
    if k !in prev && k !in next then Ok(())
    else if k !in prev then Err(FieldAppeared(k))
    else
      var now :- Parsed(Get(next, k));
      Need(JavaEquals(prev[k], now), FieldChanged(k))
  }

  function VerifyAllEqual(prev: JObject, next: JObject, fields: seq<string>): (r: Check)
    ensures r.Ok? <==> forall i :: 0 <= i < |fields| ==> Validation.Unchanged(prev, next, fields[i])
  {
    if |fields| == 0 then Ok(())
    else
      var _ :- VerifyEquals(prev, next, fields[0]);
      VerifyAllEqual(prev, next, fields[1..])
  }

  /** Both versions carry a `states` array, and the new one has no fewer states. */
  predicate StatesKept(prev: JObject, next: JObject)
  {
    && "states" in prev && prev["states"].JArr?
    && "states" in next && next["states"].JArr?
    && |prev["states"].elems| <= |next["states"].elems|
  }

  /** `performUpdateValidationChecks` (servlet revision): the same nine fields
      as the newer invariant checks, the completion rule, and a states count
      that does not decrease. */
  function UpdateChecks(prev: JObject, next: JObject): (r: Check)
    ensures r.Ok? <==>
      && (forall k :: k in Validation.IdentityFields ==> Validation.Unchanged(prev, next, k))
      && Validation.StaysCompleted(prev, next)
      && StatesKept(prev, next)
  {
    var _ :- VerifyAllEqual(prev, next, Validation.IdentityFields);
    var _ :- if "isCompleted" in prev && "isCompleted" in next then
               var was :- Parsed(GetBoolean(prev, "isCompleted"));
               if !was then Ok(())
               else
                 var now :- Parsed(GetBoolean(next, "isCompleted"));
                 Need(now, CompletedToNotCompleted)
             else Ok(());
    var before :- Parsed(GetArray(prev, "states"));
    var after :- Parsed(GetArray(next, "states"));
    Need(|before| <= |after|, StatesDecreased(|before|, |after|))
  }

  // =======================================================================
  // Internal consistency

  /** `verifyHas` for each field in turn. */
  function RequireFields(doc: JObject, fields: seq<string>): (r: Check)
    ensures r.Ok? <==> forall i :: 0 <= i < |fields| ==> fields[i] in doc
    ensures r.Err? ==> exists i :: 0 <= i < |fields| && r == Err(MissingField(fields[i]))
  {
    if |fields| == 0 then Ok(())
    else
      var _ :- Need(fields[0] in doc, MissingField(fields[0]));
      var rest := RequireFields(doc, fields[1..]);
      assert rest.Err? ==> exists i :: 1 <= i < |fields| && rest == Err(MissingField(fields[i])) by {
        if rest.Err? {
          var i :| 0 <= i < |fields[1..]| && rest == Err(MissingField(fields[1..][i]));
          assert fields[1..][i] == fields[i + 1];
        }
      }
      rest
  }

  /** The nine fields the servlet demands; the same list as the newer revision's. */
  const RequiredFields: seq<string> :=
    ["matchId", "startTime", "randomToken", "startClock", "playClock",
     "states", "moves", "stateTimes", "gameMetaURL"]

  /** What the older consistency check demands of one version. */
  predicate Consistent(doc: JObject)
  {
    && (forall k :: k in RequiredFields ==> k in doc)
    && doc["moves"].JArr? && doc["states"].JArr? && doc["stateTimes"].JArr?
    && |doc["states"].elems| == |doc["stateTimes"].elems|
    && |doc["states"].elems| == |doc["moves"].elems| + 1
  }

  /** `performInternalConsistencyChecks` (servlet revision). */
  function ConsistencyChecks(doc: JObject): (r: Check)
    ensures r.Ok? <==> Consistent(doc)
  {
    var _ :- RequireFields(doc, RequiredFields);
    var moves :- Parsed(GetArray(doc, "moves"));
    var states :- Parsed(GetArray(doc, "states"));
    var times :- Parsed(GetArray(doc, "stateTimes"));
    var _ :- Need(|states| == |times|, StateTimesMismatch(|states|, |times|));
    Need(|states| == |moves| + 1, MovesMismatch(|states|, |moves|))
  }

  // =======================================================================
  // doPost

  /** The repositories whose games may be published. */
  const Whitelist: set<string> := {"ggp-repository.appspot.com", "games.ggp.org"}

  /** What `doPost` does with one submission. */
  datatype Outcome =
    | Ignored                                  // the request was not for "/"
    | NotWhitelisted(repository: string)
    | Refused(reason: Refusal)
    | Updated(store: MatchData.Store, matchKey: string)
    | Created(store: MatchData.Store, matchKey: string)
    | KeySearchExhausted

  /** The checks an update must pass, in the order `doPost` runs them. */
  function UpdateAdmission(stored: JObject, doc: JObject): (r: Check)
    ensures r.Ok? <==> UpdateChecks(stored, doc).Ok? && ConsistencyChecks(doc).Ok?
  {
    var _ :- UpdateChecks(stored, doc);
    ConsistencyChecks(doc)
  }

  /** The checks a new match must pass, in the order `doPost` runs them. */
  function CreationAdmission(doc: JObject): (r: Check)
    ensures r.Ok? <==> CreationChecks(doc).Ok? && ConsistencyChecks(doc).Ok?
  {
    var _ :- CreationChecks(doc);
    ConsistencyChecks(doc)
  }

  /** `doPost` from the path test to the stored record. The repository the
      document names and the key looked up for it are given: the functions
      that derive them from the text are not part of this model. A key with
      a stored record takes the update path; any other key the creation path. */
  function Post(sha1: MatchData.Sha1, store: MatchData.Store, path: string, repository: string,
                lookupKey: string, doc: JObject, authToken: string, now: int): (r: Outcome)
    ensures r.Ignored? <==> path != "/"
    ensures r.NotWhitelisted? <==> path == "/" && repository !in Whitelist
    ensures r.Updated? ==>
      && lookupKey in store
      && UpdateChecks(store[lookupKey].doc, doc).Ok? && ConsistencyChecks(doc).Ok?
      && r.matchKey == lookupKey
      && r.store == store[lookupKey := MatchData.SetMatchJson(store[lookupKey], doc, now)]
    ensures r.Created? ==>
      && lookupKey !in store
      && CreationChecks(doc).Ok? && ConsistencyChecks(doc).Ok?
      && (r.matchKey == "" ==> r.store == store)
      && (r.matchKey != "" ==> r.matchKey !in store && r.store.Keys == store.Keys + {r.matchKey})
    ensures path == "/" && repository in Whitelist && lookupKey in store ==>
      (r.Updated? <==> UpdateChecks(store[lookupKey].doc, doc).Ok? && ConsistencyChecks(doc).Ok?)
    ensures path == "/" && repository in Whitelist && lookupKey !in store
            && MatchData.DistinctKeys(sha1, doc, |store.Keys| + 1) ==>
      (r.Created? <==> CreationChecks(doc).Ok? && ConsistencyChecks(doc).Ok?)
    ensures r.KeySearchExhausted? ==>
      && CreationChecks(doc).Ok? && ConsistencyChecks(doc).Ok?
      && !MatchData.DistinctKeys(sha1, doc, |store.Keys| + 1)
  {
    if path != "/" then Ignored
    else if repository !in Whitelist then NotWhitelisted(repository)
    else if lookupKey in store then UpdatePath(store, lookupKey, doc, now)
    else CreatePath(sha1, store, doc, authToken, now)
  }

  /** `doPost` for a key with a stored record: the update checks, then the
      consistency checks, then the record takes the new document. */
  function UpdatePath(store: MatchData.Store, lookupKey: string, doc: JObject, now: int): (r: Outcome)
    requires lookupKey in store
    ensures r.Updated? || r.Refused?
    ensures r.Updated? <==> UpdateChecks(store[lookupKey].doc, doc).Ok? && ConsistencyChecks(doc).Ok?
    ensures r.Updated? ==>
      && r.matchKey == lookupKey
      && r.store == store[lookupKey := MatchData.SetMatchJson(store[lookupKey], doc, now)]
  {
    var stored := store[lookupKey];
    match UpdateAdmission(stored.doc, doc)
    case Err(why) => Refused(why)
    case Ok(_) => Updated(store[lookupKey := MatchData.SetMatchJson(stored, doc, now)], lookupKey)
  }

  /** `doPost` for any other key: the creation checks, then the consistency
      checks, then a new record under a fresh key. */
  function CreatePath(sha1: MatchData.Sha1, store: MatchData.Store, doc: JObject, authToken: string, now: int): (r: Outcome)
    ensures r.Created? || r.Refused? || r.KeySearchExhausted?
    ensures r.Created? ==> CreationChecks(doc).Ok? && ConsistencyChecks(doc).Ok?
    ensures r.Created? ==>
      && (r.matchKey == "" ==> r.store == store)
      && (r.matchKey != "" ==> r.matchKey !in store && r.store.Keys == store.Keys + {r.matchKey})
    ensures MatchData.DistinctKeys(sha1, doc, |store.Keys| + 1) ==>
      (r.Created? <==> CreationChecks(doc).Ok? && ConsistencyChecks(doc).Ok?)
    ensures r.KeySearchExhausted? ==>
      && CreationChecks(doc).Ok? && ConsistencyChecks(doc).Ok?
      && !MatchData.DistinctKeys(sha1, doc, |store.Keys| + 1)
  {
    match CreationAdmission(doc)
    case Err(why) => Refused(why)
    case Ok(_) =>
      match MatchData.Create(sha1, store, doc, authToken, now)
      case None => KeySearchExhausted
      case Some(c) => Created(c.store, c.record.matchKey)
  }

  // =======================================================================
  // Properties

  /** An accepted update keeps every identity field of the stored match. */
  lemma UpdateKeepsIdentity(sha1: MatchData.Sha1, store: MatchData.Store, path: string, repository: string,
                            lookupKey: string, doc: JObject, authToken: string, now: int, k: string)
    requires Post(sha1, store, path, repository, lookupKey, doc, authToken, now).Updated?
    requires k in Validation.IdentityFields
    ensures k in store[lookupKey].doc <==> k in doc
    ensures k in doc ==> doc[k] == store[lookupKey].doc[k]
  {
    assert Validation.Unchanged(store[lookupKey].doc, doc, k);
  }

  /** An accepted update never shrinks the list of states. */
  lemma UpdateKeepsStates(sha1: MatchData.Sha1, store: MatchData.Store, path: string, repository: string,
                          lookupKey: string, doc: JObject, authToken: string, now: int)
    requires Post(sha1, store, path, repository, lookupKey, doc, authToken, now).Updated?
    ensures StatesKept(store[lookupKey].doc, doc)
  {
  }

  /** Whatever the newer consistency check accepts, the older one accepts too. */
  lemma NewConsistencyImpliesLegacy(doc: JObject, now: int, verify: Validation.SignatureVerifier)
    requires Validation.Consistent(doc, now, verify)
    ensures ConsistencyChecks(doc).Ok?
  {
    assert forall k :: k in RequiredFields ==> k in Validation.RequiredFields;
  }

  /** The consistency check the server runs, with its null scan as written,
      accepts only what the older check accepts. */
  lemma AsWrittenConsistencyImpliesLegacy(doc: JObject, now: int, verify: Validation.SignatureVerifier)
    requires Validation.ConsistencyChecksAsWritten(doc, now, verify).Ok?
    ensures ConsistencyChecks(doc).Ok?
  {
    assert forall k :: k in RequiredFields ==> k in Validation.RequiredFields;
  }

  /** The newer creation check accepts only start times inside the older
      window, as long as the clock has not passed it. */
  lemma NewCreationImpliesLegacy(doc: JObject, now: int)
    requires Validation.CreationChecks(doc, now).Ok?
    requires now + Validation.OneWeek <= LatestStart
    ensures CreationChecks(doc).Ok?
  {
  }

  /** An update the newer invariant and forward checks accept is accepted by
      the older update check, once the stored version has its states. */
  lemma NewUpdateImpliesLegacy(prev: JObject, next: JObject, parse: Validation.SymbolParser)
    requires Validation.UpdateInvariantChecks(prev, next).Ok?
    requires Validation.UpdateForwardChecks(prev, next, parse).Ok?
    requires "states" in prev && prev["states"].JArr?
    ensures UpdateChecks(prev, next).Ok?
  {
    assert Validation.ForwardRules[5] in Validation.ForwardRules;
    assert Validation.KeptForward(Validation.ForwardRules[5], parse, prev, next);
  }

  /** The older window admits start times from before GGP Galaxy began, which
      the newer check refuses. */
  lemma LegacyAdmitsEarlierStart(now: int)
    ensures var doc := map["startTime" := JNum(EarliestStart), "randomToken" := JStr("0123456789ab")];
      CreationChecks(doc).Ok? && Validation.CreationChecks(doc, now) == Err(Validation.TimeBeforeEpoch)
  {
  }

  /** The older consistency check looks only at presence and lengths: a
      document whose fields are all null passes it. */
  lemma LegacyAdmitsNullFields()
    ensures var doc := map[
        "matchId" := JNull, "startTime" := JNull, "randomToken" := JNull, "startClock" := JNull,
        "playClock" := JNull, "gameMetaURL" := JNull,
        "states" := JArr([JNull]), "moves" := JArr([]), "stateTimes" := JArr([JNull])];
      ConsistencyChecks(doc).Ok?
  {
  }
}

=== FILE: matchdata.dfy ===
/** `MatchData`: the persisted record of one match, and how its datastore key
    is derived from the match's identity.

    The key of attempt `n` is the SHA-1 (printed in hex) of a pre-hash text
    built from the hashed match id, the start time, the hashed random token,
    the hashed host key when there is one, and `n`. A new match takes the first
    attempt whose key is free; a lookup walks the attempts until it meets the
    same match or a free key. SHA-1 itself is a parameter; the datastore is a
    map from key to record; times are milliseconds supplied by the caller. */
module MatchData {
  import opened Results
  import opened Json
  import opened Strings
  import Hex
  import BoundedLog

  /** SHA-1 over the UTF-8 bytes of a string. */
  type Sha1 = string -> Hex.Digest

  /** `sha1` gives `x` and `y` the same digest only when they are the same
      text. No function from all strings to twenty bytes has this for every
      pair, so it is only ever assumed of particular texts. */
  predicate NoCollision(sha1: Sha1, x: string, y: string)
  {
    sha1(x) == sha1(y) ==> x == y
  }

  /** `computeHash`: the digest as forty lower-case hex digits. */
  function ComputeHash(sha1: Sha1, data: string): (r: string)
    ensures |r| == 40
    ensures forall i :: 0 <= i < |r| ==> Hex.IsHexDigit(r[i])
  {
    Hex.DigestText(sha1(data))
  }

  // =======================================================================
  // Identity and key attempts

  /** The fields `computeKeyAttempt` reads. */
  datatype Identity = Identity(matchId: string, startTime: int, randomToken: string, hostKey: Option<string>)

  /** Reads the identity fields as `computeKeyAttempt` does; a missing or
      mistyped field is the `JSONException` that makes the key "". */
  function ReadIdentity(doc: JObject): (r: Result<Identity, string>)
    ensures r.Ok? <==>
      && "matchId" in doc && doc["matchId"].JStr?
      && "startTime" in doc && doc["startTime"].JNum?
      && "randomToken" in doc && doc["randomToken"].JStr?
      && ("matchHostPK" in doc ==> doc["matchHostPK"].JStr?)
    ensures r.Ok? ==>
      && r.value.matchId == doc["matchId"].s
      && r.value.startTime == doc["startTime"].n
      && r.value.randomToken == doc["randomToken"].s
      && (r.value.hostKey.Some? <==> "matchHostPK" in doc)
      && (r.value.hostKey.Some? ==> r.value.hostKey.value == doc["matchHostPK"].s)
  {
    var matchId :- GetString(doc, "matchId");
    var startTime :- GetLong(doc, "startTime");
    var token :- GetString(doc, "randomToken");
    if "matchHostPK" in doc then
      var hostKey :- GetString(doc, "matchHostPK");
      Ok(Identity(matchId, startTime, token, Some(hostKey)))
    else
      Ok(Identity(matchId, startTime, token, None))
  }

  /** The host-key segment: present only when the match has a host key. */
  function HostKeyPart(sha1: Sha1, hostKey: Option<string>): string
  {
    match hostKey
    case None => ""
    case Some(pk) => "." + ComputeHash(sha1, pk)
  }

  /** The text whose hash is the key of attempt `attempt`. */
  function PreHash(sha1: Sha1, id: Identity, attempt: nat): string
  {
    ComputeHash(sha1, id.matchId) + "." + IntText(id.startTime) + "." + ComputeHash(sha1, id.randomToken)
      + HostKeyPart(sha1, id.hostKey) + "-" + IntText(attempt)
  }

  /** `computeKeyAttempt`: "" when the identity cannot be read, else forty hex digits. */
  function KeyAttempt(sha1: Sha1, doc: JObject, attempt: nat): (k: string)
    ensures k == "" <==> ReadIdentity(doc).Err?
    ensures k != "" ==> |k| == 40 && k == ComputeHash(sha1, PreHash(sha1, ReadIdentity(doc).value, attempt))
  {
    match ReadIdentity(doc)
    case Err(_) => ""
    case Ok(id) => ComputeHash(sha1, PreHash(sha1, id, attempt))
  }

  /** The layout of a pre-hash text can be taken apart again: two hashes of
      forty characters, a start time without '.', an optional host-key
      segment that starts with '.', and the attempt after '-'. */
  lemma PreHashLayout(ha: string, ta: string, ka: string, pa: string, na: string,
                      hb: string, tb: string, kb: string, pb: string, nb: string)
    requires |ha| == |hb| == |ka| == |kb| == 40
    requires forall i :: 0 <= i < |ta| ==> ta[i] != '.'
    requires forall i :: 0 <= i < |tb| ==> tb[i] != '.'
    requires pa == "" || (|pa| == 41 && pa[0] == '.')
    requires pb == "" || (|pb| == 41 && pb[0] == '.')
    requires ha + "." + ta + "." + ka + pa + "-" + na == hb + "." + tb + "." + kb + pb + "-" + nb
    ensures ha == hb && ta == tb && ka == kb && pa == pb && na == nb
  {
    var restA, restB := pa + ("-" + na), pb + ("-" + nb);
    assert ha + "." + ta + "." + ka + pa + "-" + na == ha + ("." + (ta + ("." + (ka + restA))));
    assert hb + "." + tb + "." + kb + pb + "-" + nb == hb + ("." + (tb + ("." + (kb + restB))));
    SplitFixed(ha, "." + (ta + ("." + (ka + restA))), hb, "." + (tb + ("." + (kb + restB))));
    SplitFixed(".", ta + ("." + (ka + restA)), ".", tb + ("." + (kb + restB)));
    assert ta + ['.'] + (ka + restA) == ta + ("." + (ka + restA));
    assert tb + ['.'] + (kb + restB) == tb + ("." + (kb + restB));
    SplitAtFirst(ta, ka + restA, tb, kb + restB, '.');
    SplitFixed(ka, restA, kb, restB);
    assert restA[0] == (if pa == "" then '-' else '.');
    assert restB[0] == (if pb == "" then '-' else '.');
    assert restA == restB;
    assert |pa| == |pb|;
    SplitFixed(pa, "-" + na, pb, "-" + nb);
    SplitFixed("-", na, "-", nb);
  }

  /** Equal pre-hash texts come from the same attempt, start time and
      host-key presence, and from fields with equal hashes. */
  lemma PreHashInjective(sha1: Sha1, a: Identity, n: nat, b: Identity, m: nat)
    requires PreHash(sha1, a, n) == PreHash(sha1, b, m)
    ensures n == m
    ensures a.startTime == b.startTime
    ensures a.hostKey.Some? <==> b.hostKey.Some?
    ensures ComputeHash(sha1, a.matchId) == ComputeHash(sha1, b.matchId)
    ensures ComputeHash(sha1, a.randomToken) == ComputeHash(sha1, b.randomToken)
    ensures HostKeyPart(sha1, a.hostKey) == HostKeyPart(sha1, b.hostKey)
  {
    PreHashLayout(ComputeHash(sha1, a.matchId), IntText(a.startTime), ComputeHash(sha1, a.randomToken),
                  HostKeyPart(sha1, a.hostKey), IntText(n),
                  ComputeHash(sha1, b.matchId), IntText(b.startTime), ComputeHash(sha1, b.randomToken),
                  HostKeyPart(sha1, b.hostKey), IntText(m));
    IntTextInjective(a.startTime, b.startTime);
    IntTextInjective(n, m);
  }

  /** The hash tells apart everything a key is computed from: the two
      pre-hash texts, and each pair of hashed identity fields. */
  predicate KeyInputsSeparated(sha1: Sha1, x: Identity, a: nat, y: Identity, b: nat)
  {
    && NoCollision(sha1, PreHash(sha1, x, a), PreHash(sha1, y, b))
    && NoCollision(sha1, x.matchId, y.matchId)
    && NoCollision(sha1, x.randomToken, y.randomToken)
    && (x.hostKey.Some? && y.hostKey.Some? ==> NoCollision(sha1, x.hostKey.value, y.hostKey.value))
  }

  /** Two readable matches get the same key exactly when they are the same
      match at the same attempt, as long as the hash does not collide on the
      texts the keys are computed from. */
  lemma KeyDeterminesAttempt(sha1: Sha1, doc1: JObject, a: nat, doc2: JObject, b: nat)
    requires ReadIdentity(doc1).Ok? && ReadIdentity(doc2).Ok?
    requires KeyInputsSeparated(sha1, ReadIdentity(doc1).value, a, ReadIdentity(doc2).value, b)
    ensures KeyAttempt(sha1, doc1, a) == KeyAttempt(sha1, doc2, b)
        <==> a == b && ReadIdentity(doc1) == ReadIdentity(doc2)
  {
    var x, y := ReadIdentity(doc1).value, ReadIdentity(doc2).value;
    if KeyAttempt(sha1, doc1, a) == KeyAttempt(sha1, doc2, b) {
      SameHashSameText(sha1, PreHash(sha1, x, a), PreHash(sha1, y, b));
      PreHashInjective(sha1, x, a, y, b);
      SameHashSameText(sha1, x.matchId, y.matchId);
      SameHashSameText(sha1, x.randomToken, y.randomToken);
      if x.hostKey.Some? {
        var hx, hy := ComputeHash(sha1, x.hostKey.value), ComputeHash(sha1, y.hostKey.value);
        SplitFixed(".", hx, ".", hy);
        SameHashSameText(sha1, x.hostKey.value, y.hostKey.value);
      }
    }
  }

  /** Equal printed hashes of texts the hash does not collide on come from
      the same text. */
  lemma SameHashSameText(sha1: Sha1, x: string, y: string)
    requires NoCollision(sha1, x, y)
    ensures ComputeHash(sha1, x) == ComputeHash(sha1, y) ==> x == y
  {
    if ComputeHash(sha1, x) == ComputeHash(sha1, y) {
      Hex.DigestTextInjective(sha1(x), sha1(y));
    }
  }

  /** No two of the first `n` attempts for `doc` share a key, unless it is
      the "" of an unreadable identity. */
  predicate DistinctKeys(sha1: Sha1, doc: JObject, n: nat)
  {
    forall a: nat, b: nat :: a < b < n && KeyAttempt(sha1, doc, a) == KeyAttempt(sha1, doc, b)
      ==> KeyAttempt(sha1, doc, a) == ""
  }

  /** The first `n` attempts have distinct keys when the hash does not collide
      on their pre-hash texts. */
  lemma DistinctKeysFromPreHash(sha1: Sha1, doc: JObject, n: nat)
    requires ReadIdentity(doc).Ok?
    requires var id := ReadIdentity(doc).value;
      forall a: nat, b: nat :: a < b < n ==> NoCollision(sha1, PreHash(sha1, id, a), PreHash(sha1, id, b))
    ensures DistinctKeys(sha1, doc, n)
  {
    var id := ReadIdentity(doc).value;
    forall a: nat, b: nat | a < b < n ensures KeyAttempt(sha1, doc, a) != KeyAttempt(sha1, doc, b) {
      KeyDeterminesAttempt(sha1, doc, a, doc, b);
    }
  }

  /** A stand-in digest that keeps only the last character of the text. */
  function LastCharHash(s: string): Hex.Digest
  {
    var c := if |s| == 0 then 0 else s[|s| - 1] as int % 128;
    [c as Hex.JavaByte] + seq(19, _ => 0 as Hex.JavaByte)
  }

  /** Distinct keys for the first attempts ask nothing impossible of a hash:
      even one that keeps only the last character of the pre-hash text, the
      attempt's last digit, gives the first ten attempts distinct keys. */
  lemma DistinctKeysAttainable(doc: JObject)
    requires ReadIdentity(doc).Ok?
    ensures DistinctKeys(LastCharHash, doc, 10)
  {
    var id := ReadIdentity(doc).value;
    forall a: nat, b: nat | a < b < 10
      ensures KeyAttempt(LastCharHash, doc, a) != KeyAttempt(LastCharHash, doc, b)
    {
      var x, y := PreHash(LastCharHash, id, a), PreHash(LastCharHash, id, b);
      assert x[|x| - 1] == DigitChar(a);
      assert y[|y| - 1] == DigitChar(b);
      assert LastCharHash(x)[0] != LastCharHash(y)[0];
      Hex.DigestTextInjective(LastCharHash(x), LastCharHash(y));
    }
  }

  // =======================================================================
  // Choosing a new key

  /** Attempt `a` may be used for a new match: its key is "" or not yet taken. */
  predicate Usable(sha1: Sha1, used: set<string>, doc: JObject, a: nat)
  {
    var k := KeyAttempt(sha1, doc, a);
    k == "" || k !in used
  }

  /** A salted-attempt loop from attempt `a` on, allowed `fuel` more attempts:
      the least attempt satisfying `stop`, or `None` when the fuel runs out. */
  function FirstFrom(stop: nat -> bool, a: nat, fuel: nat): (r: Option<nat>)
    ensures r.Some? ==> a <= r.value < a + fuel && stop(r.value)
    ensures forall b: nat :: a <= b < (if r.Some? then r.value else a + fuel) ==> !stop(b)
    decreases fuel
  {
    if fuel == 0 then None
    else if stop(a) then Some(a)
    else FirstFrom(stop, a + 1, fuel - 1)
  }

  /** If `n` values are pairwise distinct and a set has fewer than `n`
      elements, one of the values is missing from the set. */
  lemma {:induction false} Pigeonhole(values: nat -> string, n: nat, taken: set<string>) returns (a: nat)
    requires |taken| < n
    requires forall i, j :: 0 <= i < j < n ==> values(i) != values(j)
    ensures a < n && values(a) !in taken
    decreases n
  {
    var last := values(n - 1);
    if last !in taken {
      a := n - 1;
    } else {
      var rest := taken - {last};
      assert |rest| == |taken| - 1;
      a := Pigeonhole(values, n - 1, rest);
    }
  }

  /** The attempt number `getNewKeyForJSON` settles on, within one more
      attempt than there are stored matches. */
  function NewKeyAttempt(sha1: Sha1, store: Store, doc: JObject): (r: Option<nat>)
    ensures DistinctKeys(sha1, doc, |store.Keys| + 1) ==> r.Some?
    ensures r.Some? ==> r.value <= |store.Keys| && Usable(sha1, store.Keys, doc, r.value)
    ensures r.Some? ==> forall b: nat :: b < r.value ==> !Usable(sha1, store.Keys, doc, b)
  {
    var stop := (b: nat) => Usable(sha1, store.Keys, doc, b);
    var r := FirstFrom(stop, 0, |store.Keys| + 1);
    assert forall b: nat :: stop(b) == Usable(sha1, store.Keys, doc, b);
    SearchSucceeds(sha1, store, doc, r);
    r
  }

  /** A search over the first |store| + 1 attempts that fails only when none
      of them is usable succeeds when their keys are distinct. */
  lemma SearchSucceeds(sha1: Sha1, store: Store, doc: JObject, r: Option<nat>)
    requires r.None? ==> forall b: nat :: b < |store.Keys| + 1 ==> !Usable(sha1, store.Keys, doc, b)
    ensures DistinctKeys(sha1, doc, |store.Keys| + 1) ==> r.Some?
  {
    FreeAttemptExists(sha1, store, doc);
  }

  /** When the first |store| + 1 attempts have distinct keys, one of them is
      usable: there are more keys than stored matches. */
  lemma FreeAttemptExists(sha1: Sha1, store: Store, doc: JObject)
    ensures DistinctKeys(sha1, doc, |store.Keys| + 1) ==>
      exists a: nat :: a <= |store.Keys| && Usable(sha1, store.Keys, doc, a)
  {
    if DistinctKeys(sha1, doc, |store.Keys| + 1) {
      if ReadIdentity(doc).Err? {
        assert Usable(sha1, store.Keys, doc, 0);
      } else {
        var values := (i: nat) => KeyAttempt(sha1, doc, i);
        var n := |store.Keys| + 1;
        forall i, j | 0 <= i < j < n ensures values(i) != values(j) {
          assert KeyAttempt(sha1, doc, i) != "";
        }
        var a := Pigeonhole(values, n, store.Keys);
        assert Usable(sha1, store.Keys, doc, a);
      }
    }
  }

  /** `getNewKeyForJSON`: the key of the least usable attempt. */
  function NewKeyForJson(sha1: Sha1, store: Store, doc: JObject): (r: Option<string>)
    ensures DistinctKeys(sha1, doc, |store.Keys| + 1) ==> r.Some?
    ensures r.Some? ==> r.value == "" || r.value !in store
    ensures r.Some? ==> (r.value == "" <==> ReadIdentity(doc).Err?)
    ensures r.Some? ==> exists a: nat ::
      && a <= |store.Keys| && r.value == KeyAttempt(sha1, doc, a) && Usable(sha1, store.Keys, doc, a)
      && forall b: nat :: b < a ==> !Usable(sha1, store.Keys, doc, b)
  {
    match NewKeyAttempt(sha1, store, doc)
    case None => None
    case Some(a) => Some(KeyAttempt(sha1, doc, a))
  }

  // =======================================================================
  // Finding an existing match

  /** The comparison of `loadExistingMatchFromJSON`, in its order; a
      `JSONException` on either side means "not this one". */
  function CompareIdentity(stored: JObject, doc: JObject): Result<bool, string>
  {
    var id1 :- GetString(stored, "matchId");
    var id2 :- GetString(doc, "matchId");
    if id1 != id2 then Ok(false)
    else
      var start1 :- GetLong(stored, "startTime");
      var start2 :- GetLong(doc, "startTime");
      if start1 != start2 then Ok(false)
      else
        var token1 :- GetString(stored, "randomToken");
        var token2 :- GetString(doc, "randomToken");
        if token1 != token2 then Ok(false)
        else if "matchHostPK" in stored || "matchHostPK" in doc then
          var pk1 :- GetString(stored, "matchHostPK");
          var pk2 :- GetString(doc, "matchHostPK");
          Ok(pk1 == pk2)
        else Ok(true)
  }

  /** The stored document is the same match as `doc`: exactly when both carry
      the same readable identity. */
  predicate SameMatch(stored: JObject, doc: JObject)
    ensures SameMatch(stored, doc) <==> ReadIdentity(stored).Ok? && ReadIdentity(stored) == ReadIdentity(doc)
  {
    CompareIdentity(stored, doc) == Ok(true)
  }

  /** The same match has the same key for every attempt. */
  lemma SameMatchSameKeys(sha1: Sha1, stored: JObject, doc: JObject, a: nat)
    requires SameMatch(stored, doc)
    ensures KeyAttempt(sha1, stored, a) == KeyAttempt(sha1, doc, a) != ""
  {
  }

  datatype Lookup = Found(attempt: nat, key: string, record: MatchRecord) | NotFound(attempt: nat) | GaveUp

  /** Attempt `a` holds a different match, so the lookup moves on. */
  predicate Passed(sha1: Sha1, store: Store, doc: JObject, a: nat)
  {
    var k := KeyAttempt(sha1, doc, a);
    k != "" && k in store && !SameMatch(store[k].doc, doc)
  }

  /** The loop of `loadExistingMatchFromJSON` from attempt `a` on, allowed
      `fuel` more attempts: it passes over the attempts holding other matches
      and ends at the first one that does not. There, a "" key or a key with
      no stored match (where `getObjectById` throws) is not found; otherwise
      the stored record is the same match. */
  function LoadFrom(sha1: Sha1, store: Store, doc: JObject, a: nat, fuel: nat): (r: Lookup)
    ensures r.Found? ==>
              && a <= r.attempt < a + fuel && r.key == KeyAttempt(sha1, doc, r.attempt)
              && r.key in store && r.record == store[r.key] && SameMatch(r.record.doc, doc)
    ensures r.NotFound? ==>
              && a <= r.attempt < a + fuel
              && (KeyAttempt(sha1, doc, r.attempt) == "" || KeyAttempt(sha1, doc, r.attempt) !in store)
    ensures forall b: nat :: a <= b < (if r.GaveUp? then a + fuel else r.attempt) ==> Passed(sha1, store, doc, b)
  {
    var stop := (b: nat) => !Passed(sha1, store, doc, b);
    assert forall b: nat :: stop(b) == !Passed(sha1, store, doc, b);
    match FirstFrom(stop, a, fuel)
    case None => GaveUp
    case Some(b) =>
      var k := KeyAttempt(sha1, doc, b);
      if k == "" || k !in store then NotFound(b) else Found(b, k, store[k])
  }

  /** `loadExistingMatchFromJSON` with at most `fuel` attempts. */
  function LoadExisting(sha1: Sha1, store: Store, doc: JObject, fuel: nat): (r: Lookup)
    ensures r.Found? ==>
              && r.attempt < fuel && r.key == KeyAttempt(sha1, doc, r.attempt)
              && r.key in store && r.record == store[r.key] && SameMatch(r.record.doc, doc)
    ensures r.NotFound? ==>
              && r.attempt < fuel
              && (KeyAttempt(sha1, doc, r.attempt) == "" || KeyAttempt(sha1, doc, r.attempt) !in store)
    ensures forall b: nat :: b < (if r.GaveUp? then fuel else r.attempt) ==> Passed(sha1, store, doc, b)
    ensures ReadIdentity(doc).Err? ==> r == NotFound(0) || fuel == 0
  {
    LoadFrom(sha1, store, doc, 0, fuel)
  }

  // =======================================================================
  // The record

  /** One Atom entry: the document it announces and when. */
  datatype AtomEntry = AtomEntry(doc: JObject, updated: int)

  datatype MatchRecord = MatchRecord(
    matchKey: string,
    authToken: string,
    doc: JObject,
    atomEntries: seq<AtomEntry>,
    lastUpdated: int,
    clientIds: set<string>)

  /** The datastore: records by key. */
  type Store = map<string, MatchRecord>

  datatype Creation = Creation(record: MatchRecord, store: Store)

  /** The constructor: picks a new key, starts the Atom log with one entry and
      an empty client set, and stores the record unless its key is "". `None`
      when the key search runs out, which needs two of the first attempts to
      share a key. */
  function Create(sha1: Sha1, store: Store, doc: JObject, authToken: string, now: int): (r: Option<Creation>)
    ensures DistinctKeys(sha1, doc, |store.Keys| + 1) ==> r.Some?
    ensures r.Some? ==>
      var rec := r.value.record;
      && rec.doc == doc && rec.authToken == authToken && rec.lastUpdated == now
      && rec.atomEntries == [AtomEntry(doc, now)] && rec.clientIds == {}
      && (rec.matchKey == "" <==> ReadIdentity(doc).Err?)
      && (rec.matchKey != "" ==> rec.matchKey !in store && r.value.store == store[rec.matchKey := rec])
      && (rec.matchKey != "" ==> r.value.store.Keys == store.Keys + {rec.matchKey})
      && (rec.matchKey == "" ==> r.value.store == store)
  {
    match NewKeyForJson(sha1, store, doc)
    case None => None
    case Some(key) =>
      var rec := MatchRecord(key, authToken, doc, [AtomEntry(doc, now)], now, {});
      StoreKeysAfterPut(store, key, rec);
      Some(Creation(rec, if key != "" then store[key := rec] else store))
  }

  /** Storing a record adds its key to the store's keys and nothing else. */
  lemma StoreKeysAfterPut(store: Store, key: string, rec: MatchRecord)
    ensures store[key := rec].Keys == store.Keys + {key}
  {
  }

  /** `setMatchJSON`: replaces the document and appends exactly one Atom entry. */
  function SetMatchJson(rec: MatchRecord, doc: JObject, now: int): (r: MatchRecord)
    ensures r.doc == doc && r.lastUpdated == now
    ensures r.matchKey == rec.matchKey && r.authToken == rec.authToken && r.clientIds == rec.clientIds
    ensures |r.atomEntries| == |rec.atomEntries| + 1
    ensures r.atomEntries[..|rec.atomEntries|] == rec.atomEntries
    ensures r.atomEntries[|rec.atomEntries|] == AtomEntry(doc, now)
  {
    rec.(doc := doc, lastUpdated := now, atomEntries := rec.atomEntries + [AtomEntry(doc, now)])
  }

  /** `addClientID`: set insertion. */
  function AddClientId(rec: MatchRecord, clientId: string): (r: MatchRecord)
    ensures r.clientIds == rec.clientIds + {clientId}
    ensures r.(clientIds := rec.clientIds) == rec
  {
    rec.(clientIds := rec.clientIds + {clientId})
  }

  /** `numClientIDs`. */
  function NumClientIds(rec: MatchRecord): nat
  {
    |rec.clientIds|
  }

  /** Registering the same client twice is the same as registering it once,
      and registering a client adds at most one to the count. */
  lemma AddClientIdIdempotent(rec: MatchRecord, clientId: string)
    ensures AddClientId(AddClientId(rec, clientId), clientId) == AddClientId(rec, clientId)
    ensures NumClientIds(AddClientId(rec, clientId))
      == NumClientIds(rec) + (if clientId in rec.clientIds then 0 else 1)
  {
    if clientId in rec.clientIds {
      assert rec.clientIds + {clientId} == rec.clientIds;
    }
  }

  /** The entries `getAtomFeed` writes, newest first. */
  function AtomFeed(rec: MatchRecord): (r: seq<AtomEntry>)
    ensures |r| == |rec.atomEntries|
    ensures forall i :: 0 <= i < |r| ==> r[i] == rec.atomEntries[|rec.atomEntries| - 1 - i]
  {
    BoundedLog.Reverse(rec.atomEntries)
  }

  /** After an update, the feed leads with the new entry, followed by the previous feed. */
  lemma AtomFeedAfterUpdate(rec: MatchRecord, doc: JObject, now: int)
    ensures AtomFeed(SetMatchJson(rec, doc, now)) == [AtomEntry(doc, now)] + AtomFeed(rec)
  {
    BoundedLog.ReverseAppend(rec.atomEntries, AtomEntry(doc, now));
  }

  /** A match created and stored under a key is found again by its own
      document, unless the same match already sat at an earlier attempt.
      The first |store| + 1 attempts must have distinct keys: with fewer
      keys than that, the key search may run out. */
  lemma CreateThenLoad(sha1: Sha1, store: Store, doc: JObject, authToken: string, now: int)
    requires ReadIdentity(doc).Ok? && DistinctKeys(sha1, doc, |store.Keys| + 1)
    requires forall b: nat, k :: b <= |store.Keys| && k == KeyAttempt(sha1, doc, b) && k in store ==> !SameMatch(store[k].doc, doc)
    ensures var c := Create(sha1, store, doc, authToken, now).value;
      LoadExisting(sha1, c.store, doc, |store.Keys| + 1) == Found(NewKeyAttempt(sha1, store, doc).value, c.record.matchKey, c.record)
  {
    var a, rec := CreatedAtFirstFree(sha1, store, doc, authToken, now);
    StoredAtFirstFree(sha1, store, doc, rec, a, |store.Keys| + 1);
  }

  /** A new match of readable identity is stored at the first usable attempt,
      whose key no earlier attempt shares. */
  lemma CreatedAtFirstFree(sha1: Sha1, store: Store, doc: JObject, authToken: string, now: int)
    returns (a: nat, rec: MatchRecord)
    requires ReadIdentity(doc).Ok? && DistinctKeys(sha1, doc, |store.Keys| + 1)
    ensures NewKeyAttempt(sha1, store, doc) == Some(a) && a <= |store.Keys|
    ensures Create(sha1, store, doc, authToken, now).Some?
    ensures var c := Create(sha1, store, doc, authToken, now).value;
      && c.record == rec && c.store == store[KeyAttempt(sha1, doc, a) := rec]
    ensures rec.doc == doc && rec.matchKey == KeyAttempt(sha1, doc, a)
    ensures Usable(sha1, store.Keys, doc, a)
    ensures forall b: nat :: b < a ==> !Usable(sha1, store.Keys, doc, b)
    ensures forall b: nat :: b < a ==> KeyAttempt(sha1, doc, b) != KeyAttempt(sha1, doc, a)
  {
    a := NewKeyAttempt(sha1, store, doc).value;
    rec := Create(sha1, store, doc, authToken, now).value.record;
    assert KeyAttempt(sha1, doc, a) != "";
  }

  /** A record for `doc` stored at the first usable attempt `a`, whose key no
      earlier attempt shares, is found there when no earlier attempt already
      held the same match. */
  lemma StoredAtFirstFree(sha1: Sha1, store: Store, doc: JObject, rec: MatchRecord, a: nat, fuel: nat)
    requires ReadIdentity(doc).Ok? && rec.doc == doc && a < fuel
    requires Usable(sha1, store.Keys, doc, a)
    requires forall b: nat :: b < a ==> !Usable(sha1, store.Keys, doc, b)
    requires forall b: nat :: b < a ==> KeyAttempt(sha1, doc, b) != KeyAttempt(sha1, doc, a)
    requires forall b: nat, k :: b < a && k == KeyAttempt(sha1, doc, b) && k in store ==> !SameMatch(store[k].doc, doc)
    ensures LoadExisting(sha1, store[KeyAttempt(sha1, doc, a) := rec], doc, fuel)
      == Found(a, KeyAttempt(sha1, doc, a), rec)
  {
    var key := KeyAttempt(sha1, doc, a);
    var s := store[key := rec];
    forall b: nat | b < a ensures Passed(sha1, s, doc, b) {
      assert !Usable(sha1, store.Keys, doc, b);
      assert s[KeyAttempt(sha1, doc, b)] == store[KeyAttempt(sha1, doc, b)];
    }
    LoadWalks(sha1, s, doc, 0, fuel, a);
  }

  /** The lookup passes over the attempts holding other matches and stops at
      the first attempt holding the same match. */
  lemma LoadWalks(sha1: Sha1, store: Store, doc: JObject, a: nat, fuel: nat, target: nat)
    requires a <= target < a + fuel
    requires forall b: nat :: a <= b < target ==> Passed(sha1, store, doc, b)
    requires KeyAttempt(sha1, doc, target) != "" && KeyAttempt(sha1, doc, target) in store
    requires SameMatch(store[KeyAttempt(sha1, doc, target)].doc, doc)
    ensures LoadFrom(sha1, store, doc, a, fuel)
      == Found(target, KeyAttempt(sha1, doc, target), store[KeyAttempt(sha1, doc, target)])
  {
    var r := LoadFrom(sha1, store, doc, a, fuel);
    assert !Passed(sha1, store, doc, target);
    assert !r.GaveUp? && r.attempt == target;
  }
}

=== FILE: recentmatchkeys.dfy ===
/** `RecentMatchKeys`: the single stored list of the most recently seen match
    keys, oldest first, at most a hundred long. The datastore holds at most
    one such record; `None` stands for none stored yet. */
module RecentMatchKeys {
  import opened Results
  import BoundedLog

  /** `kRecentMatchKeysToRecord`. */
  const Capacity: nat := 100

  type Store = Option<seq<string>>

  /** `getRecentMatchKeys`: the stored list, or the empty list of a fresh record. */
  function GetRecentMatchKeys(store: Store): (r: seq<string>)
    ensures store.None? ==> r == []
    ensures store.Some? ==> r == store.value
  {
    match store
    case None => []
    case Some(keys) => keys
  }

  /** `addRecentMatchKey`: appends to the stored list (or to a fresh one),
      dropping the oldest key when the list grows past capacity. */
  function AddRecentMatchKey(store: Store, key: string): (r: Store)
    ensures r.Some?
    ensures var before := GetRecentMatchKeys(store);
            var after := r.value;
            && 0 < |after| && after[|after| - 1] == key
            && (|before| <= Capacity ==> |after| <= Capacity)
            && (|before| < Capacity ==> after == before + [key])
            && (|before| == Capacity ==> after == before[1..] + [key])
  {
    var before := GetRecentMatchKeys(store);
    var after := BoundedLog.Append(before, key, Capacity);
    assert |before| < Capacity ==> after == before + [key];
    assert |before| == Capacity ==> after[..Capacity - 1] == before[1..] && after == after[..Capacity - 1] + [key];
    Some(after)
  }

  /** Adds the keys of `ks`, one at a time, in order. */
  function AddAll(store: Store, ks: seq<string>): Store
    decreases |ks|
  {
    if |ks| == 0 then store else AddRecentMatchKey(AddAll(store, ks[..|ks| - 1]), ks[|ks| - 1])
  }

  /** From no record at all, any run of adds leaves exactly the latest hundred keys, oldest first. */
  lemma {:induction false} KeepsLatestKeys(ks: seq<string>)
    ensures GetRecentMatchKeys(AddAll(None, ks)) == BoundedLog.Window(ks, Capacity)
    decreases |ks|
  {
    if |ks| > 0 {
      var front, x := ks[..|ks| - 1], ks[|ks| - 1];
      assert ks == front + [x];
      var prev := AddAll(None, front);
      assert GetRecentMatchKeys(AddAll(None, ks))
          == BoundedLog.Append(GetRecentMatchKeys(prev), x, Capacity);
      KeepsLatestKeys(front);
      BoundedLog.WindowStep(front, x, Capacity);
    }
  }
}

=== FILE: results.dfy ===
/** Failure-compatible wrappers used throughout the model.

    A Java method that either returns normally or throws is modelled as a
    function returning `Result`; a `void` check that may throw returns
    `Result<(), E>`, so a sequence of checks reads as a chain of `:-`. */
module Results {

  datatype Option<+T> = None | Some(value: T)

  datatype Result<+T, +E> = Ok(value: T) | Err(error: E) {

    predicate IsFailure() {
      Err?
    }

    function PropagateFailure<U>(): Result<U, E>
      requires Err?
    {
      Err(error)
    }

    function Extract(): T
      requires Ok?
    {
      value
    }

    /** Re-labels the failure, as a `catch` that rethrows a different exception does. */
    function MapError<F>(wrap: E -> F): Result<T, F>
    {
      match this
      case Ok(v) => Ok(v)
      case Err(e) => Err(wrap(e))
    }
  }

  /** Passes exactly when `condition` holds; otherwise fails with `error`. */
  function Need<E>(condition: bool, error: E): Result<(), E>
  {
    if condition then Ok(()) else Err(error)
  }
}

=== FILE: routing.dfy ===
/** The GET side of the servlet: how `doGet` takes a request path apart, and
    what it answers for each kind of path. Only the slicing of the path and
    the choice of answer are modelled; headers, static pages and the channel
    service are not. */
module Routing {
  import opened Results
  import opened Strings
  import opened Json
  import MatchData

  const Prefix: string := "/matches/"
  const FeedSuffix: string := "/feed.atom"
  const ChannelSuffix: string := "/channel.js"
  const ClientMarker: string := "/clientId="
  const VizSuffix: string := "/viz.html"

  /** What a GET path asks for. */
  datatype Route =
    | NotFound                                       // status 404
    | ChannelToken                                   // a fresh channel id and token
    | RegisterChannel(key: string, clientId: string) // register a channel client for a match
    | VizPage                                        // the static match page
    | ShowMatch(key: string, feed: bool)             // a match, as JSON or as its Atom feed

  /** `s` less `suffix`, which it ends with. */
  function DropSuffix(s: string, suffix: string): (r: string)
    requires EndsWith(s, suffix)
    ensures |r| == |s| - |suffix| && r + suffix == s
  {
    s[..|s| - |suffix|]
  }

  /** The text after the prefix with the feed suffix (when `feed`) and at most
      one slash after it. */
  predicate Dressed(uri: string, body: string, feed: bool)
  {
    var bare := Prefix + body + (if feed then FeedSuffix else "");
    uri == bare || uri == bare + "/"
  }

  /** Lines 32-37 of `doGet`: strip the prefix and one trailing slash, then
      the feed suffix, noting whether there was one. */
  function Trim(uri: string): (r: (string, bool))
    requires StartsWith(uri, Prefix)
    ensures Dressed(uri, r.0, r.1)
  {
    var rest := uri[|Prefix|..];
    assert uri == Prefix + rest;
    var unslashed := if EndsWith(rest, "/") then DropSuffix(rest, "/") else rest;
    assert Prefix + unslashed == uri || Prefix + unslashed + "/" == uri;
    if EndsWith(unslashed, FeedSuffix) then
      var body := DropSuffix(unslashed, FeedSuffix);
      assert Prefix + body + FeedSuffix == Prefix + unslashed;
      (body, true)
    else
      (unslashed, false)
  }

  /** Lines 44-46 of `doGet`: the text before the first "/clientId=" and
      the text after it; `None` when there is no such marker. */
  function SplitClient(target: string): (r: Option<(string, string)>)
    ensures r.None? <==> IndexOf(target, ClientMarker).None?
    ensures r.Some? ==> target == r.value.0 + ClientMarker + r.value.1
    ensures r.Some? ==> IndexOf(target, ClientMarker) == Some(|r.value.0|)
  {
    match IndexOf(target, ClientMarker)
    case None => None
    case Some(i) =>
      var key, id := target[..i], target[i + |ClientMarker|..];
      assert target == key + ClientMarker + id;
      Some((key, id))
  }

  /** Lines 42-52 of `doGet`, for a trimmed text that ends with "/channel.js". */
  function ChannelRoute(body: string): (r: Route)
    requires EndsWith(body, ChannelSuffix)
    ensures r.NotFound? || r.RegisterChannel?
    ensures r.RegisterChannel? ==>
      && body == r.key + ClientMarker + r.clientId + ChannelSuffix
      && IndexOf(r.key + ClientMarker + r.clientId, ClientMarker) == Some(|r.key|)
  {
    match SplitClient(DropSuffix(body, ChannelSuffix))
    case None => NotFound
    case Some((key, id)) => RegisterChannel(key, id)
  }

  /** Where `doGet` sends a path, in the order of its tests. */
  function RouteOf(uri: string): (r: Route)
    ensures !StartsWith(uri, Prefix) ==> r == NotFound
    ensures r.ShowMatch? ==> Dressed(uri, r.key, r.feed)
    ensures r.RegisterChannel? ==>
      && (Dressed(uri, r.key + ClientMarker + r.clientId + ChannelSuffix, false)
          || Dressed(uri, r.key + ClientMarker + r.clientId + ChannelSuffix, true))
      && IndexOf(r.key + ClientMarker + r.clientId, ClientMarker) == Some(|r.key|)
    ensures r.ChannelToken? ==> Dressed(uri, "channel.js", false) || Dressed(uri, "channel.js", true)
  {
    if !StartsWith(uri, Prefix) then NotFound
    else
      var trimmed := Trim(uri);
      var body := trimmed.0;
      if body == "channel.js" then ChannelToken
      else if EndsWith(body, ChannelSuffix) then ChannelRoute(body)
      else if EndsWith(body, VizSuffix) then VizPage
      else ShowMatch(body, trimmed.1)
  }

  /** What `doGet` writes back. */
  datatype Response =
    | Status404
    | ChannelTokenScript
    | ChannelRegistration(key: string, clientId: string)
    | MatchPage
    | MatchJson(doc: JObject)
    | AtomFeed(entries: seq<MatchData.AtomEntry>)

  /** `doGet`: a match path is looked up in the store; a missing match is a 404. */
  function Respond(store: MatchData.Store, uri: string): (r: Response)
    ensures r.MatchJson? || r.AtomFeed? ==> RouteOf(uri).ShowMatch? && RouteOf(uri).key in store
    ensures r.MatchJson? ==> !RouteOf(uri).feed && r.doc == store[RouteOf(uri).key].doc
    ensures r.AtomFeed? ==> RouteOf(uri).feed && r.entries == MatchData.AtomFeed(store[RouteOf(uri).key])
    ensures r.Status404? <==> RouteOf(uri).NotFound? || (RouteOf(uri).ShowMatch? && RouteOf(uri).key !in store)
    ensures RouteOf(uri).ShowMatch? && RouteOf(uri).key in store ==>
      r == (if RouteOf(uri).feed then AtomFeed(MatchData.AtomFeed(store[RouteOf(uri).key]))
            else MatchJson(store[RouteOf(uri).key].doc))
    ensures RouteOf(uri).ChannelToken? <==> r.ChannelTokenScript?
    ensures RouteOf(uri).VizPage? <==> r.MatchPage?
    ensures RouteOf(uri).RegisterChannel? <==> r.ChannelRegistration?
    ensures r.ChannelRegistration? ==> r.key == RouteOf(uri).key && r.clientId == RouteOf(uri).clientId
  {
    match RouteOf(uri)
    case NotFound => Status404
    case ChannelToken => ChannelTokenScript
    case RegisterChannel(key, id) => ChannelRegistration(key, id)
    case VizPage => MatchPage
    case ShowMatch(key, feed) =>
      if key !in store then Status404
      else if feed then AtomFeed(MatchData.AtomFeed(store[key]))
      else MatchJson(store[key].doc)
  }

  // =======================================================================
  // Round trips: the paths the server publishes lead back to their match

  /** A match key as the server hands them out: no slash in it. */
  predicate PlainKey(key: string)
  {
    forall i :: 0 <= i < |key| ==> key[i] != '/'
  }

  /** A text ends with a suffix only if their last characters agree. */
  lemma LastCharacter(s: string, suffix: string)
    requires 0 < |suffix|
    ensures EndsWith(s, suffix) ==> s[|s| - 1] == suffix[|suffix| - 1]
  {
    if |suffix| <= |s| {
      assert s[|s| - |suffix|..][|suffix| - 1] == s[|s| - 1];
    }
  }

  /** Every text ends with itself appended. */
  lemma EndsWithAppended(s: string, suffix: string)
    ensures EndsWith(s + suffix, suffix) && DropSuffix(s + suffix, suffix) == s
  {
    assert (s + suffix)[|s|..] == suffix;
    assert (s + suffix)[..|s|] == s;
  }

  /** A plain key ends with no suffix that starts with a slash. */
  lemma PlainKeyHasNoSuffix(key: string, suffix: string)
    requires PlainKey(key) && 0 < |suffix| && suffix[0] == '/'
    ensures !EndsWith(key, suffix)
  {
    if |suffix| <= |key| {
      assert key[|key| - |suffix|..][0] == key[|key| - |suffix|] != '/';
    }
  }

  /** Dropping one final slash undoes adding one, and leaves a text without one alone. */
  lemma Unslash(dressed: string, slash: bool)
    requires !slash ==> !EndsWith(dressed, "/")
    ensures var rest := dressed + (if slash then "/" else "");
      (if EndsWith(rest, "/") then DropSuffix(rest, "/") else rest) == dressed
  {
    if slash {
      EndsWithAppended(dressed, "/");
    } else {
      assert dressed + "" == dressed;
    }
  }

  /** What `Trim` makes of a path: the prefix comes off, then one final
      slash, then a feed suffix. */
  lemma TrimOf(body: string, feed: bool, slash: bool)
    requires !EndsWith(body, "/") && (!feed ==> !EndsWith(body, FeedSuffix))
    ensures var uri := Prefix + body + (if feed then FeedSuffix else "") + (if slash then "/" else "");
      StartsWith(uri, Prefix) && Trim(uri) == (body, feed)
  {
    var fs := if feed then FeedSuffix else "";
    var ss := if slash then "/" else "";
    var dressed := body + fs;
    var uri := Prefix + body + fs + ss;
    assert uri == Prefix + (dressed + ss);
    assert StartsWith(uri, Prefix) by {
      assert uri[..|Prefix|] == Prefix;
    }
    assert uri[|Prefix|..] == dressed + ss;
    if feed {
      LastCharacter(dressed, "/");
      assert dressed[|dressed| - 1] == 'm';
      EndsWithAppended(body, FeedSuffix);
    } else {
      assert dressed == body;
    }
    Unslash(dressed, slash);
  }

  /** A path with neither a final slash nor a feed suffix is routed on its
      text after the prefix as it stands. */
  lemma RouteOfBody(body: string)
    requires !EndsWith(body, "/") && !EndsWith(body, FeedSuffix)
    ensures body == "channel.js" ==> RouteOf(Prefix + body) == ChannelToken
    ensures body != "channel.js" && EndsWith(body, ChannelSuffix) ==> RouteOf(Prefix + body) == ChannelRoute(body)
  {
    TrimOf(body, false, false);
    assert Prefix + body + "" + "" == Prefix + body;
  }

  /** `/matches/<key>`, with or without a final slash, shows the match. */
  lemma MatchPathRoundTrip(key: string, slash: bool)
    requires PlainKey(key) && key != "channel.js"
    ensures RouteOf(Prefix + key + (if slash then "/" else "")) == ShowMatch(key, false)
  {
    PlainKeyHasNoSuffix(key, "/");
    PlainKeyHasNoSuffix(key, FeedSuffix);
    PlainKeyHasNoSuffix(key, ChannelSuffix);
    PlainKeyHasNoSuffix(key, VizSuffix);
    TrimOf(key, false, slash);
    assert Prefix + key + "" == Prefix + key;
  }

  /** `/matches/<key>/feed.atom`, with or without a final slash, shows the match's feed. */
  lemma FeedPathRoundTrip(key: string, slash: bool)
    requires PlainKey(key) && key != "channel.js"
    ensures RouteOf(Prefix + key + FeedSuffix + (if slash then "/" else "")) == ShowMatch(key, true)
  {
    PlainKeyHasNoSuffix(key, "/");
    PlainKeyHasNoSuffix(key, ChannelSuffix);
    PlainKeyHasNoSuffix(key, VizSuffix);
    TrimOf(key, true, slash);
  }

  /** The marker splits a plain key followed by the marker and any id back
      into the key and the id. */
  lemma SplitPlainKey(key: string, id: string)
    requires PlainKey(key)
    ensures SplitClient(key + ClientMarker + id) == Some((key, id))
  {
    var target := key + ClientMarker + id;
    assert OccursAt(target, ClientMarker, |key|) by {
      assert target[|key|..|key| + |ClientMarker|] == ClientMarker;
    }
    forall j: nat | j < |key| ensures !OccursAt(target, ClientMarker, j) {
      assert target[j] == key[j] != '/';
      if j + |ClientMarker| <= |target| {
        assert target[j..j + |ClientMarker|][0] == target[j];
      }
    }
    IndexOfIsFirst(target, ClientMarker, |key|);
    var split := SplitClient(target).value;
    assert |split.0| == |key|;
    assert split.0 + (ClientMarker + split.1) == key + (ClientMarker + id);
    SplitFixed(split.0, ClientMarker + split.1, key, ClientMarker + id);
    SplitFixed(ClientMarker, split.1, ClientMarker, id);
  }

  /** A path ending in "/channel.js" is routed on the split of the text
      between the prefix and that suffix. */
  lemma RouteOfChannelPath(target: string)
    ensures RouteOf(Prefix + target + ChannelSuffix)
      == match SplitClient(target)
         case None => NotFound
         case Some((key, id)) => RegisterChannel(key, id)
  {
    var body := target + ChannelSuffix;
    LastCharacter(body, "/");
    LastCharacter(body, FeedSuffix);
    assert body != "channel.js" by {
      assert |body| >= |ChannelSuffix|;
    }
    RouteOfBody(body);
    assert Prefix + body == Prefix + target + ChannelSuffix;
    EndsWithAppended(target, ChannelSuffix);
  }

  /** `/matches/<key>/clientId=<id>/channel.js` registers client `id` for the
      match, whatever the id holds. */
  lemma ChannelPathRoundTrip(key: string, id: string)
    requires PlainKey(key)
    ensures RouteOf(Prefix + key + ClientMarker + id + ChannelSuffix) == RegisterChannel(key, id)
  {
    var target := key + ClientMarker + id;
    RouteOfChannelPath(target);
    SplitPlainKey(key, id);
    assert Prefix + target == Prefix + key + ClientMarker + id by {
      assert Prefix + target == (Prefix + (key + ClientMarker)) + id;
      assert Prefix + (key + ClientMarker) == (Prefix + key) + ClientMarker;
    }
  }

  /** A channel path without a client id is a 404. */
  lemma ChannelPathWithoutClient(key: string)
    requires forall j: nat :: !OccursAt(key, ClientMarker, j)
    ensures RouteOf(Prefix + key + ChannelSuffix) == NotFound
  {
    RouteOfChannelPath(key);
    assert SplitClient(key).None?;
  }

  /** A path outside "/matches/" is a 404, whatever the store holds. */
  lemma ForeignPathNotFound(store: MatchData.Store, uri: string)
    requires !StartsWith(uri, Prefix)
    ensures Respond(store, uri) == Status404
  {
  }

  /** The one path that issues a channel token. */
  lemma ChannelTokenPath()
    ensures RouteOf("/matches/channel.js") == ChannelToken
  {
    LastCharacter("channel.js", "/");
    LastCharacter("channel.js", FeedSuffix);
    RouteOfBody("channel.js");
    assert Prefix + "channel.js" == "/matches/channel.js";
  }
}

=== FILE: strings.dfy ===
/** The `java.lang.String`, `Integer` and `Long` operations the server relies on,
    over Dafny strings (sequences of characters). */
module Strings {
  import opened Results

  predicate StartsWith(s: string, prefix: string)
  {
    |prefix| <= |s| && s[..|prefix|] == prefix
  }

  predicate EndsWith(s: string, suffix: string)
  {
    |suffix| <= |s| && s[|s| - |suffix|..] == suffix
  }

  /** `pat` occurs in `s` starting at position `i`. */
  predicate OccursAt(s: string, pat: string, i: nat)
  {
    i + |pat| <= |s| && s[i..i + |pat|] == pat
  }

  /** `String.indexOf(pat, from)`: the first occurrence at or after `from`. */
  function IndexFrom(s: string, pat: string, from: nat): (r: Option<nat>)
    ensures r.Some? ==> from <= r.value && OccursAt(s, pat, r.value)
    ensures forall j: nat :: from <= j && (r.None? || j < r.value) ==> !OccursAt(s, pat, j)
    decreases |s| + 1 - from
  {
    if from + |pat| > |s| then None
    else if OccursAt(s, pat, from) then Some(from)
    else IndexFrom(s, pat, from + 1)
  }

  /** `String.indexOf(pat)`: `None` stands for Java's -1. */
  function IndexOf(s: string, pat: string): Option<nat>
  {
    IndexFrom(s, pat, 0)
  }

  /** The last occurrence starting strictly before `bound`. */
  function LastIndexBelow(s: string, pat: string, bound: nat): (r: Option<nat>)
    ensures r.Some? ==> r.value < bound && OccursAt(s, pat, r.value)
    ensures forall j: nat :: j < bound && (r.None? || r.value < j) ==> !OccursAt(s, pat, j)
    decreases bound
  {
    if bound == 0 then None
    else if OccursAt(s, pat, bound - 1) then Some(bound - 1)
    else LastIndexBelow(s, pat, bound - 1)
  }

  /** `String.lastIndexOf(pat)`: `None` stands for Java's -1. */
  function LastIndexOf(s: string, pat: string): Option<nat>
  {
    LastIndexBelow(s, pat, |s| + 1)
  }

  /** The first occurrence of `pat` in `s` is at `i` exactly when it occurs there and nowhere earlier. */
  lemma IndexOfIsFirst(s: string, pat: string, i: nat)
    requires OccursAt(s, pat, i)
    requires forall j: nat :: j < i ==> !OccursAt(s, pat, j)
    ensures IndexOf(s, pat) == Some(i)
  {
  }

  /** The last occurrence of `pat` in `s` is at `i` exactly when it occurs there and nowhere later. */
  lemma LastIndexOfIsLast(s: string, pat: string, i: nat)
    requires OccursAt(s, pat, i)
    requires forall j: nat :: i < j <= |s| ==> !OccursAt(s, pat, j)
    ensures LastIndexOf(s, pat) == Some(i)
  {
  }

  /** Two concatenations agree, and their first parts have the same length:
      then both parts agree. */
  lemma SplitFixed(x1: string, r1: string, x2: string, r2: string)
    requires |x1| == |x2| && x1 + r1 == x2 + r2
    ensures x1 == x2 && r1 == r2
  {
    assert x1 == (x1 + r1)[..|x1|];
    assert x2 == (x2 + r2)[..|x2|];
    assert r1 == (x1 + r1)[|x1|..];
    assert r2 == (x2 + r2)[|x2|..];
  }

  /** Splitting at the first occurrence of a separator is unambiguous: if
      neither front part contains `c`, equal texts have equal parts. */
  lemma SplitAtFirst(a1: string, r1: string, a2: string, r2: string, c: char)
    requires forall i :: 0 <= i < |a1| ==> a1[i] != c
    requires forall i :: 0 <= i < |a2| ==> a2[i] != c
    requires a1 + [c] + r1 == a2 + [c] + r2
    ensures a1 == a2 && r1 == r2
  {
    var s := a1 + [c] + r1;
    assert OccursAt(s, [c], |a1|) by { assert s[|a1|..|a1| + 1] == [c]; }
    assert OccursAt(s, [c], |a2|) by { assert s[|a2|..|a2| + 1] == [c]; }
    forall j: nat | j < |a1| ensures !OccursAt(s, [c], j) {
      assert s[j..j + 1][0] == a1[j];
    }
    forall j: nat | j < |a2| ensures !OccursAt(s, [c], j) {
      assert s[j..j + 1][0] == a2[j];
    }
    IndexOfIsFirst(s, [c], |a1|);
    IndexOfIsFirst(s, [c], |a2|);
    SplitFixed(a1, [c] + r1, a2, [c] + r2);
    SplitFixed([c], r1, [c], r2);
  }

  // ---------------------------------------------------------------------
  // UTF-16

  /** A character outside the Basic Multilingual Plane, which Java stores as
      a surrogate pair. */
  predicate Supplementary(c: char)
  {
    c as int > 0xFFFF
  }

  /** `String.length()`: the number of UTF-16 code units, two for each
      supplementary character and one for any other. */
  function Utf16Length(s: string): (r: nat)
    ensures |s| <= r <= 2 * |s|
    ensures r == |s| <==> forall i :: 0 <= i < |s| ==> !Supplementary(s[i])
    ensures r == 2 * |s| <==> forall i :: 0 <= i < |s| ==> Supplementary(s[i])
  {
    if |s| == 0 then 0
    else
      var rest := Utf16Length(s[1..]);
      assert forall i :: 1 <= i < |s| ==> s[i] == s[1..][i - 1];
      (if Supplementary(s[0]) then 2 else 1) + rest
  }

  // ---------------------------------------------------------------------
  // Decimal numerals

  const IntMin: int := -0x8000_0000
  const IntMax: int := 0x7fff_ffff
  const LongMin: int := -0x8000_0000_0000_0000
  const LongMax: int := 0x7fff_ffff_ffff_ffff

  predicate IsDigit(c: char)
  {
    '0' <= c <= '9'
  }

  predicate AllDigits(s: string)
  {
    forall i :: 0 <= i < |s| ==> IsDigit(s[i])
  }

  function DigitChar(d: nat): (c: char)
    requires d < 10
    ensures IsDigit(c) && c as int - '0' as int == d
  {
    (d + '0' as int) as char
  }

  /** The value of a string of ASCII digits, most significant first. */
  function DigitsValue(s: string): nat
    requires AllDigits(s)
  {
    if |s| == 0 then 0
    else 10 * DigitsValue(s[..|s| - 1]) + (s[|s| - 1] as int - '0' as int)
  }

  /** `Integer.parseInt` / `Long.parseLong` in radix 10, with the type's range
      given as `lo..hi`: an optional `+` or `-`, then at least one ASCII digit,
      and a value inside the range. `None` stands for NumberFormatException. */
  function ParseDecimal(s: string, lo: int, hi: int): Option<int>
  {
    if |s| == 0 then None
    else
      var digits := if s[0] == '-' || s[0] == '+' then s[1..] else s;
      if |digits| == 0 || !AllDigits(digits) then None
      else
        var v: int := if s[0] == '-' then -(DigitsValue(digits) as int) else DigitsValue(digits);
        if lo <= v <= hi then Some(v) else None
  }

  /** `Integer.parseInt(s)`. */
  function ParseInt(s: string): Option<int>
  {
    ParseDecimal(s, IntMin, IntMax)
  }

  /** The decimal numeral of a natural number, without leading zeros; reading it back yields `n`. */
  function NatText(n: nat): (s: string)
    ensures 0 < |s| && AllDigits(s)
    ensures DigitsValue(s) == n
    ensures s[0] == '0' <==> n == 0
    ensures |s| > 1 ==> s[0] != '0'
  {
    if n < 10 then [DigitChar(n)]
    else
      var front := NatText(n / 10);
      var s := front + [DigitChar(n % 10)];
      assert s[..|s| - 1] == front;
      s
  }

  /** `Long.toString(n)` (and `Integer.toString`, and Java's `"" + n`). */
  function IntText(n: int): (s: string)
    ensures 0 < |s|
    ensures forall i :: 0 <= i < |s| ==> IsDigit(s[i]) || (i == 0 && s[i] == '-')
    ensures s[0] == '-' <==> n < 0
    ensures |s| > 1 ==> s[0] != '0' && (s[0] == '-' ==> s[1] != '0')
  {
    if n < 0 then "-" + NatText(-n) else NatText(n)
  }

  /** Parsing the decimal text of a number gives the number back, whenever it lies in the parser's range. */
  lemma ParseIntText(n: int, lo: int, hi: int)
    requires lo <= n <= hi
    ensures ParseDecimal(IntText(n), lo, hi) == Some(n)
  {
    var s := IntText(n);
    if n < 0 {
      assert s[1..] == NatText(-n);
    }
  }

  /** Distinct numbers have distinct decimal texts. */
  lemma IntTextInjective(a: int, b: int)
    requires IntText(a) == IntText(b)
    ensures a == b
  {
    var lo := if a < b then a else b;
    var hi := if a < b then b else a;
    ParseIntText(a, lo, hi);
    ParseIntText(b, lo, hi);
  }
}

=== FILE: validation.dfy ===
/** The match-update validator of `MatchValidation.java`.

    Four checks guard what the spectator server stores: creation checks for a
    brand-new match, identity invariants and forward-only rules between the
    stored and the submitted version, and internal consistency of one version.
    Each Java method that returns or throws `ValidationException` is a function
    returning a `Check`; a `JSONException` surfaces as `JsonError`, as the Java
    `catch` blocks rethrow it. */
module Validation {
  import opened Results
  import opened Json
  import opened Strings

  /** Why a document is refused: one case per exception the checks raise. */
  datatype Reason =
    | JsonError(message: string)
    | TimeNegative
    | TimeBeforeEpoch
    | TimeAfterWeek
    | TokenTooShort
    | HostKeyWithoutSignature
    | FieldAppeared(field: string)
    | FieldChanged(field: string)
    | ArrayDropped(field: string)
    | ArrayLengthChanged(field: string, oldLength: nat, newLength: nat)
    | ArrayShrank(field: string, oldLength: nat, newLength: nat)
    | OldSymbolsUnparseable(field: string, index: nat)
    | NewSymbolsUnparseable(field: string, index: nat)
    | SymbolSetsDiffer(field: string, index: nat)
    | InnerArrayRemoved(field: string, index: nat)
    | InnerArrayDiffers(field: string, index: nat)
    | ElementDiffers(field: string, index: nat)
    | CompletedToNotCompleted
    | NullValue(where: string)
    | MissingField(field: string)
    | UnexpectedKeys(keys: set<string>)
    | UnversionedGameUrl
    | NoInitialState
    | StateTimesMismatch(states: nat, stateTimes: nat)
    | MovesMismatch(states: nat, moves: nat)
    | MoveRowMismatch(players: nat, found: nat)
    | NestedArrayInRow
    | ObjectInRow
    | NullInRow
    | GoalsBeforeCompletion
    | GoalsMismatch(players: nat, goals: nat)
    | NamesMismatch(players: nat, names: nat)
    | ErrorsMismatch(states: nat, errors: nat)
    | ErrorRowsInconsistent
    | ErrorPlayersMismatch(players: nat, errorPlayers: nat)
    | TimeGoesBackward
    | HostKeyUnsigned
    | SignatureInvalid
    | SignatureWithoutHostKey

  /** The outcome of a `void` check that may throw. */
  type Check = Result<(), Reason>

  /** A `JSONException` caught and rethrown as "Could not parse JSON". */
  function Parsed<T>(r: Result<T, string>): Result<T, Reason>
  {
    r.MapError(m => JsonError(m))
  }

  /** `SymbolFactory.create` applied to an element's text, listing the items of
      the symbol list it yields; `None` when that text is not a symbol list. */
  type SymbolParser = JValue -> Option<seq<string>>

  /** `SignableJSON.verifySignedJSON`: the embedded signature checks out against the embedded key. */
  type SignatureVerifier = JObject -> bool

  // =======================================================================
  // Reasonable times

  /** Milliseconds since the Unix epoch at which GGP Galaxy began. */
  const GalaxyEpoch: int := 1200000000000
  /** One week in milliseconds. */
  const OneWeek: int := 604800000

  predicate IsReasonableTime(t: int, now: int)
  {
    GalaxyEpoch <= t <= now + OneWeek
  }

  /** `verifyReasonableTime`, with `now` standing for `System.currentTimeMillis()`. */
  function ReasonableTime(t: int, now: int): (r: Check)
    ensures r.Ok? <==> GalaxyEpoch <= t <= now + OneWeek
    ensures t < 0 ==> r == Err(TimeNegative)
  {
    if t < 0 then Err(TimeNegative)
    else if t < GalaxyEpoch then Err(TimeBeforeEpoch)
    else if t > now + OneWeek then Err(TimeAfterWeek)
    else Ok(())
  }

  // =======================================================================
  // Creation

  predicate HasReasonableStart(doc: JObject, now: int)
  {
    "startTime" in doc && doc["startTime"].JNum? && IsReasonableTime(doc["startTime"].n, now)
  }

  /** `performCreationValidationChecks`. */
  function CreationChecks(doc: JObject, now: int): (r: Check)
    ensures r.Ok? <==>
      && HasReasonableStart(doc, now)
      && "randomToken" in doc && doc["randomToken"].JStr? && Utf16Length(doc["randomToken"].s) >= 12
      && ("matchHostPK" in doc ==> "matchHostSignature" in doc)
    ensures (HasReasonableStart(doc, now) && "randomToken" in doc && doc["randomToken"].JStr?
             && Utf16Length(doc["randomToken"].s) < 12) ==> r == Err(TokenTooShort)
  {
    var start :- Parsed(GetLong(doc, "startTime"));
    var _ :- ReasonableTime(start, now);
    var token :- Parsed(GetString(doc, "randomToken"));
    var _ :- Need(Utf16Length(token) >= 12, TokenTooShort);
    Need(!("matchHostPK" in doc) || "matchHostSignature" in doc, HostKeyWithoutSignature)
  }

  // =======================================================================
  // Identity invariants between two versions

  /** The fields that define a match and its ground rules. */
  const IdentityFields: seq<string> :=
    ["matchId", "startTime", "randomToken", "matchHostPK", "startClock",
     "playClock", "gameMetaURL", "gameName", "gameRulesheetHash"]

  /** Field `k` is absent from both versions, or both hold the same plain value. */
  predicate Unchanged(prev: JObject, next: JObject, k: string)
  {
    (k !in prev && k !in next) || (k in prev && k in next && IsScalar(prev[k]) && prev[k] == next[k])
  }

  /** `verifyEquals`. */
  function VerifyEquals(prev: JObject, next: JObject, k: string): (r: Check)
    ensures r.Ok? <==> Unchanged(prev, next, k)
    ensures k !in prev && k in next ==> r == Err(FieldAppeared(k))
    ensures k in prev && k !in next ==> r.Err? && r.error.JsonError?
    ensures k in prev && k in next && prev[k] != next[k] ==> r == Err(FieldChanged(k))
  {
    if k !in prev && k !in next then Ok(())
    else if k !in prev then Err(FieldAppeared(k))
    else
      var now :- Parsed(Get(next, k));
      Need(JavaEquals(prev[k], now), FieldChanged(k))
  }

  function VerifyAllEqual(prev: JObject, next: JObject, fields: seq<string>): (r: Check)
    ensures r.Ok? <==> forall i :: 0 <= i < |fields| ==> Unchanged(prev, next, fields[i])
  {
    if |fields| == 0 then Ok(())
    else
      var _ :- VerifyEquals(prev, next, fields[0]);
      VerifyAllEqual(prev, next, fields[1..])
  }

  /** `performUpdateInvariantValidationChecks`. */
  function UpdateInvariantChecks(prev: JObject, next: JObject): (r: Check)
    ensures r.Ok? <==> forall k :: k in IdentityFields ==> Unchanged(prev, next, k)
  {
    VerifyAllEqual(prev, next, IdentityFields)
  }

  // =======================================================================
  // Forward-only rules between two versions

  /** The three flags `verifyOptionalArraysEqual` is called with. */
  datatype ArrayRule = ArrayRule(field: string, canExpand: bool, asSymbolSets: bool, emptyMayFill: bool)

  const ForwardRules: seq<ArrayRule> := [
    ArrayRule("gameRoleNames", false, false, false),
    ArrayRule("isPlayerHuman", false, false, false),
    ArrayRule("playerNamesFromHost", false, false, true),
    ArrayRule("moves", true, false, false),
    ArrayRule("errors", true, false, false),
    ArrayRule("states", true, true, false),
    ArrayRule("stateTimes", true, false, false)
  ]

  /** `verifyOptionalArraysEqual_GenerateSymbolSet`: the set of items of an element's symbol list. */
  function SymbolSet(parse: SymbolParser, v: JValue): Option<set<string>>
  {
    match parse(v)
    case None => None
    case Some(items) => Some(set x | x in items)
  }

  /** What the forward rule demands of an old element `o` and the element `n` now at its index. */
  predicate Preserved(rule: ArrayRule, parse: SymbolParser, o: JValue, n: JValue)
  {
    if rule.asSymbolSets then
      SymbolSet(parse, o).Some? && SymbolSet(parse, n).Some? && SymbolSet(parse, o) == SymbolSet(parse, n)
    else if o.JArr? then
      o == n
    else
      JavaEquals(o, n) || (rule.emptyMayFill && PrintsEmpty(o) && !PrintsEmpty(n))
  }

  /** The body of the element loop of `verifyOptionalArraysEqual`, for index `i`. */
  function CompareElement(rule: ArrayRule, parse: SymbolParser, o: JValue, n: JValue, i: nat): (r: Check)
    ensures r.Ok? <==> Preserved(rule, parse, o, n)
  {
    if rule.asSymbolSets then
      var os := SymbolSet(parse, o);
      var ns := SymbolSet(parse, n);
      if os.None? then Err(OldSymbolsUnparseable(rule.field, i))
      else if ns.None? then Err(NewSymbolsUnparseable(rule.field, i))
      else Need(os == ns, SymbolSetsDiffer(rule.field, i))
    else if o.JArr? then
      if !n.JArr? then Err(InnerArrayRemoved(rule.field, i))
      else Need(o == n, InnerArrayDiffers(rule.field, i))
    else if JavaEquals(o, n) || (rule.emptyMayFill && PrintsEmpty(o) && !PrintsEmpty(n)) then Ok(())
    else Err(ElementDiffers(rule.field, i))
  }

  function CompareFrom(rule: ArrayRule, parse: SymbolParser, oa: seq<JValue>, na: seq<JValue>, i: nat): (r: Check)
    requires |oa| <= |na| && i <= |oa|
    ensures r.Ok? <==> forall j :: i <= j < |oa| ==> Preserved(rule, parse, oa[j], na[j])
    decreases |oa| - i
  {
    if i == |oa| then Ok(())
    else
      var _ :- CompareElement(rule, parse, oa[i], na[i], i);
      CompareFrom(rule, parse, oa, na, i + 1)
  }

  /** The forward rule for one optional array: absent from the old version, or
      still an array in the new one, of the same length (or, if it may expand,
      at least as long), with every old element preserved at its index. */
  predicate KeptForward(rule: ArrayRule, parse: SymbolParser, prev: JObject, next: JObject)
  {
    var f := rule.field;
    f in prev ==>
      && f in next && prev[f].JArr? && next[f].JArr?
      && (if rule.canExpand then |prev[f].elems| <= |next[f].elems| else |prev[f].elems| == |next[f].elems|)
      && forall j :: 0 <= j < |prev[f].elems| ==> Preserved(rule, parse, prev[f].elems[j], next[f].elems[j])
  }

  /** `verifyOptionalArraysEqual`. */
  function ArrayForward(rule: ArrayRule, parse: SymbolParser, prev: JObject, next: JObject): (r: Check)
    ensures r.Ok? <==> KeptForward(rule, parse, prev, next)
    ensures rule.field in prev && rule.field !in next ==> r == Err(ArrayDropped(rule.field))
  {
    var f := rule.field;
    if f !in prev && f !in next then Ok(())
    else if f in prev && f !in next then Err(ArrayDropped(f))
    else if f !in prev && f in next then Ok(())
    else
      var oa :- Parsed(GetArray(prev, f));
      var na :- Parsed(GetArray(next, f));
      var _ :- Need(rule.canExpand || |oa| == |na|, ArrayLengthChanged(f, |oa|, |na|));
      var _ :- Need(|na| >= |oa|, ArrayShrank(f, |oa|, |na|));
      CompareFrom(rule, parse, oa, na, 0)
  }

  function ForwardFrom(rules: seq<ArrayRule>, parse: SymbolParser, prev: JObject, next: JObject): (r: Check)
    ensures r.Ok? <==> forall i :: 0 <= i < |rules| ==> KeptForward(rules[i], parse, prev, next)
  {
    if |rules| == 0 then Ok(())
    else
      var _ :- ArrayForward(rules[0], parse, prev, next);
      ForwardFrom(rules[1..], parse, prev, next)
  }

  /** A match that both versions mark with `isCompleted` may not go from completed to not completed;
      the old flag must read as a boolean, and when it is true so must the new one, as true. */
  predicate StaysCompleted(prev: JObject, next: JObject)
  {
    "isCompleted" in prev && "isCompleted" in next ==>
      var was := AsBoolean(prev["isCompleted"], "");
      was.Ok? && (was.value ==> AsBoolean(next["isCompleted"], "") == Ok(true))
  }

  function CompletionCheck(prev: JObject, next: JObject): (r: Check)
    ensures r.Ok? <==> StaysCompleted(prev, next)
  {
    if "isCompleted" in prev && "isCompleted" in next then
      var was :- Parsed(GetBoolean(prev, "isCompleted"));
      if !was then Ok(())
      else
        var now :- Parsed(GetBoolean(next, "isCompleted"));
        Need(now, CompletedToNotCompleted)
    else Ok(())
  }

  /** `performUpdateForwardValidationChecks`. */
  function UpdateForwardChecks(prev: JObject, next: JObject, parse: SymbolParser): (r: Check)
    ensures r.Ok? <==>
      (forall rule :: rule in ForwardRules ==> KeptForward(rule, parse, prev, next)) && StaysCompleted(prev, next)
  {
    var _ :- ForwardFrom(ForwardRules, parse, prev, next);
    CompletionCheck(prev, next)
  }

  // =======================================================================
  // Internal consistency of one version

  const RequiredFields: seq<string> :=
    ["matchId", "startTime", "randomToken", "startClock", "playClock",
     "states", "moves", "stateTimes", "gameMetaURL"]

  const ValidKeys: set<string> := {
    "randomToken", "playerNamesFromHost", "weight", "analysisClock", "moves", "states",
    "scrambled", "gameName", "goalValues", "isPlayerHuman", "startTime", "playClock",
    "stateTimes", "gameRoleNames", "tournamentNameFromHost", "errors", "matchHostSignature",
    "startClock", "matchId", "gameMetaURL", "previewClock", "matchHostPK", "isAborted",
    "isCompleted"
  }

  /** A key from the allow-list, or a vendor extension starting with "x-". */
  predicate AllowedKey(k: string)
  {
    k in ValidKeys || StartsWith(k, "x-")
  }

  /** No `JSONObject.NULL` anywhere inside `v`, at any depth. */
  predicate NullFree(v: JValue)
  {
    match v
    case JNull => false
    case JArr(a) => forall i :: 0 <= i < |a| ==> NullFree(a[i])
    case JObj(m) => forall k :: k in m ==> NullFree(m[k])
    case _ => true
  }

  /** `verifyNoNulls` as evidently intended: every value of every object and
      every element of every array is scanned (see the findings in README.md). */
  function NoNulls(doc: JObject): (r: Check)
    ensures r.Ok? <==> forall path :: Follow(JObj(doc), path) != Some(JNull)
  {
    NullFreeMeansNoNullReachable(JObj(doc));
    Need(NullFree(JObj(doc)), NullValue("theMatchJSON"))
  }

  lemma {:induction false} NullFreeFollow(v: JValue, path: seq<Step>)
    requires NullFree(v)
    ensures Follow(v, path) != Some(JNull)
    decreases |path|
  {
    if |path| > 0 {
      match path[0]
      case Field(k) =>
        if v.JObj? && k in v.fields {
          NullFreeFollow(v.fields[k], path[1..]);
        }
      case Element(i) =>
        if v.JArr? && i < |v.elems| {
          NullFreeFollow(v.elems[i], path[1..]);
        }
    }
  }

  lemma {:induction false} FindNull(v: JValue) returns (path: seq<Step>)
    requires !NullFree(v)
    ensures Follow(v, path) == Some(JNull)
  {
    match v
    case JNull =>
      path := [];
    case JArr(a) =>
      var i :| 0 <= i < |a| && !NullFree(a[i]);
      var rest := FindNull(a[i]);
      path := [Element(i)] + rest;
      assert path[1..] == rest;
    case JObj(m) =>
      var k :| k in m && !NullFree(m[k]);
      var rest := FindNull(m[k]);
      path := [Field(k)] + rest;
      assert path[1..] == rest;
  }

  /** The recursive scan and the path-based reading agree: a value is null-free
      exactly when no path inside it leads to `JSONObject.NULL`. */
  lemma NullFreeMeansNoNullReachable(v: JValue)
    ensures NullFree(v) <==> forall path :: Follow(v, path) != Some(JNull)
  {
    if NullFree(v) {
      forall path: seq<Step> ensures Follow(v, path) != Some(JNull) {
        NullFreeFollow(v, path);
      }
    } else {
      var path := FindNull(v);
    }
  }

  /** What `verifyNoNulls` does as written. Its call `JSONObject.getNames(o)` has
      `o` typed as `Object`, so Java selects the reflective overload, which lists
      the public fields of the class `JSONObject`: only "NULL", which the loop
      skips. An object is therefore never scanned; arrays are. */
  predicate NullFreeAsWritten(v: JValue)
  {
    match v
    case JNull => false
    case JArr(a) => forall i :: 0 <= i < |a| ==> a[i] != JNull && NullFreeAsWritten(a[i])
    case _ => true
  }

  /** `verifyNoNulls` as written: objects pass unscanned; `NULL` itself and
      arrays holding `NULL` at any array-only depth are refused. */
  function NoNullsAsWritten(v: JValue, name: string): (r: Check)
    ensures v.JObj? ==> r == Ok(())
    ensures r.Ok? ==> v != JNull && (v.JArr? ==> forall i :: 0 <= i < |v.elems| ==> v.elems[i] != JNull)
    ensures r.Err? ==> r.error == NullValue(name)
  {
    Need(NullFreeAsWritten(v), NullValue(name))
  }

  /** `verifyHas` for each field in turn. */
  function RequireFields(doc: JObject, fields: seq<string>): (r: Check)
    ensures r.Ok? <==> forall i :: 0 <= i < |fields| ==> fields[i] in doc
  {
    if |fields| == 0 then Ok(())
    else
      var _ :- Need(fields[0] in doc, MissingField(fields[0]));
      RequireFields(doc, fields[1..])
  }

  function AllowedKeys(doc: JObject): (r: Check)
    ensures r.Ok? <==> forall k :: k in doc ==> AllowedKey(k)
  {
    var unexpected := set k | k in doc && !AllowedKey(k);
    Need(unexpected == {}, UnexpectedKeys(unexpected))
  }

  /** What the code accepts as a version-qualified game URL: the text from the
      last "/v", less its first two and its last character, must parse with
      `Integer.parseInt`. Without a "/v", `substring(-1)` throws; a suffix of
      exactly "/v" makes `substring(2, 1)` throw. The last character is cut
      as one UTF-16 unit: when it is a surrogate pair, the high surrogate
      stays behind and the parse fails. */
  predicate VersionQualified(url: string)
  {
    match LastIndexOf(url, "/v")
    case None => false
    case Some(i) =>
      var suffix := url[i..];
      && 3 <= |suffix| && !Supplementary(suffix[|suffix| - 1])
      && ParseInt(suffix[2..|suffix| - 1]).Some?
  }

  /** `verifyStringArray`: every element is a string, number or boolean. */
  predicate FlatRow(row: seq<JValue>)
  {
    forall i :: 0 <= i < |row| ==> IsScalar(row[i]) && row[i] != JNull
  }

  function StringArrayFrom(row: seq<JValue>, i: nat): (r: Check)
    requires i <= |row|
    ensures r.Ok? <==> forall j :: i <= j < |row| ==> IsScalar(row[j]) && row[j] != JNull
    decreases |row| - i
  {
    if i == |row| then Ok(())
    else if row[i].JArr? then Err(NestedArrayInRow)
    else if row[i].JObj? then Err(ObjectInRow)
    else if row[i] == JNull then Err(NullInRow)
    else StringArrayFrom(row, i + 1)
  }

  function StringArray(row: seq<JValue>): (r: Check)
    ensures r.Ok? <==> FlatRow(row)
  {
    StringArrayFrom(row, 0)
  }

  /** Every row of `moves` from `i` on is an array of `players` flat values. */
  function MoveRows(moves: seq<JValue>, i: nat, players: nat): (r: Check)
    requires i <= |moves|
    ensures r.Ok? <==> forall j :: i <= j < |moves| ==>
      moves[j].JArr? && |moves[j].elems| == players && FlatRow(moves[j].elems)
    decreases |moves| - i
  {
    if i == |moves| then Ok(())
    else
      var row :- Parsed(ArrayAt(moves, i));
      var _ :- Need(players == |row|, MoveRowMismatch(players, |row|));
      var _ :- StringArray(row);
      MoveRows(moves, i + 1, players)
  }

  /** The per-player rules that apply once at least one move is recorded: every
      moves row has as many entries as the first; `goalValues`, if present, only
      in a match not marked incomplete and with one value per player;
      `playerNamesFromHost`, if present, with one name per player. */
  predicate PlayersConsistent(doc: JObject, moves: seq<JValue>)
  {
    0 < |moves| ==>
      && moves[0].JArr?
      && var players := |moves[0].elems|;
      && (forall j :: 0 <= j < |moves| ==>
            moves[j].JArr? && |moves[j].elems| == players && FlatRow(moves[j].elems))
      && ("goalValues" in doc ==>
            && ("isCompleted" in doc ==> AsBoolean(doc["isCompleted"], "") == Ok(true))
            && doc["goalValues"].JArr? && |doc["goalValues"].elems| == players)
      && ("playerNamesFromHost" in doc ==>
            doc["playerNamesFromHost"].JArr? && |doc["playerNamesFromHost"].elems| == players)
  }

  function GoalsCheck(doc: JObject, players: nat): (r: Check)
    ensures r.Ok? <==> ("goalValues" in doc ==>
            && ("isCompleted" in doc ==> AsBoolean(doc["isCompleted"], "") == Ok(true))
            && doc["goalValues"].JArr? && |doc["goalValues"].elems| == players)
  {
    if "goalValues" !in doc then Ok(())
    else
      var _ :- if "isCompleted" in doc then
                 var completed :- Parsed(GetBoolean(doc, "isCompleted"));
                 Need(completed, GoalsBeforeCompletion)
               else Ok(());
      var goals :- Parsed(GetArray(doc, "goalValues"));
      Need(|goals| == players, GoalsMismatch(players, |goals|))
  }

  function NamesCheck(doc: JObject, players: nat): (r: Check)
    ensures r.Ok? <==> ("playerNamesFromHost" in doc ==>
            doc["playerNamesFromHost"].JArr? && |doc["playerNamesFromHost"].elems| == players)
  {
    if "playerNamesFromHost" !in doc then Ok(())
    else
      var names :- Parsed(GetArray(doc, "playerNamesFromHost"));
      Need(|names| == players, NamesMismatch(players, |names|))
  }

  function PlayerChecks(doc: JObject, moves: seq<JValue>): (r: Check)
    ensures r.Ok? <==> PlayersConsistent(doc, moves)
  {
    if |moves| == 0 then Ok(())
    else
      var first :- Parsed(ArrayAt(moves, 0));
      var _ :- MoveRows(moves, 0, |first|);
      var _ :- GoalsCheck(doc, |first|);
      NamesCheck(doc, |first|)
  }

  /** `errors`, when present: one row per state, all rows as long as the first
      and flat, and as many entries per row as there are players in `moves`. */
  predicate ErrorsConsistent(doc: JObject, states: nat, moves: seq<JValue>)
  {
    "errors" in doc ==>
      && doc["errors"].JArr?
      && var rows := doc["errors"].elems;
      && |rows| == states
      && (forall j :: 0 <= j < |rows| ==>
            rows[j].JArr? && rows[0].JArr? && |rows[j].elems| == |rows[0].elems| && FlatRow(rows[j].elems))
      && (0 < |moves| ==> moves[0].JArr? && 0 < |rows| && rows[0].JArr? && |moves[0].elems| == |rows[0].elems|)
  }

  function ErrorRows(rows: seq<JValue>, i: nat): (r: Check)
    requires i <= |rows|
    ensures r.Ok? <==> forall j :: i <= j < |rows| ==>
      rows[j].JArr? && rows[0].JArr? && |rows[j].elems| == |rows[0].elems| && FlatRow(rows[j].elems)
    decreases |rows| - i
  {
    if i == |rows| then Ok(())
    else
      var row :- Parsed(ArrayAt(rows, i));
      var first :- Parsed(ArrayAt(rows, 0));
      var _ :- Need(|row| == |first|, ErrorRowsInconsistent);
      var _ :- StringArray(row);
      ErrorRows(rows, i + 1)
  }

  function ErrorChecks(doc: JObject, states: nat, moves: seq<JValue>): (r: Check)
    ensures r.Ok? <==> ErrorsConsistent(doc, states, moves)
  {
    if "errors" !in doc then Ok(())
    else
      var rows :- Parsed(GetArray(doc, "errors"));
      var _ :- Need(|rows| == states, ErrorsMismatch(states, |rows|));
      var _ :- ErrorRows(rows, 0);
      if 0 < |moves| then
        var first :- Parsed(ArrayAt(moves, 0));
        var firstErrors :- Parsed(ArrayAt(rows, 0));
        Need(|first| == |firstErrors|, ErrorPlayersMismatch(|first|, |firstErrors|))
      else Ok(())
  }

  /** Every state time is a reasonable number, the first is no earlier than
      `start`, and each is no earlier than the one before. */
  predicate TimesConsistent(start: int, times: seq<JValue>, now: int)
  {
    && (forall j :: 0 <= j < |times| ==> times[j].JNum? && IsReasonableTime(times[j].n, now))
    && (0 < |times| ==> start <= times[0].n)
    && (forall j :: 0 < j < |times| ==> times[j - 1].n <= times[j].n)
  }

  /** The `stateTimes` loop from index `i` on, `last` being the latest time seen so far. */
  function TimeSequence(times: seq<JValue>, i: nat, last: int, now: int): (r: Check)
    requires i <= |times|
    ensures r.Ok? <==>
      && (forall j :: i <= j < |times| ==> times[j].JNum? && IsReasonableTime(times[j].n, now))
      && (i < |times| ==> last <= times[i].n)
      && (forall j :: i < j < |times| ==> times[j - 1].n <= times[j].n)
    decreases |times| - i
  {
    if i == |times| then Ok(())
    else
      var t :- Parsed(LongAt(times, i));
      var _ :- ReasonableTime(t, now);
      var _ :- Need(last <= t, TimeGoesBackward);
      TimeSequence(times, i + 1, t, now)
  }

  /** A host key demands a valid signature; a signature demands a host key. */
  predicate SignatureConsistent(doc: JObject, verify: SignatureVerifier)
  {
    if "matchHostPK" in doc then "matchHostSignature" in doc && verify(doc)
    else "matchHostSignature" !in doc
  }

  /** `SignableJSON.isSignedJSON`: the document carries both a host key and a signature. */
  predicate IsSigned(doc: JObject)
  {
    "matchHostPK" in doc && "matchHostSignature" in doc
  }

  function SignatureChecks(doc: JObject, verify: SignatureVerifier): (r: Check)
    ensures r.Ok? <==> SignatureConsistent(doc, verify)
  {
    if "matchHostPK" in doc then
      var _ :- Need(IsSigned(doc), HostKeyUnsigned);
      Need(verify(doc), SignatureInvalid)
    else Need("matchHostSignature" !in doc, SignatureWithoutHostKey)
  }

  /** The first half of the checks: no nulls, the required fields and no
      others, a versioned game URL, and three arrays of matching lengths. */
  predicate Structured(doc: JObject)
  {
    NullFree(JObj(doc)) && Shaped(doc)
  }

  /** The first half of the checks after the null scan. */
  predicate Shaped(doc: JObject)
  {
    && (forall k :: k in RequiredFields ==> k in doc)
    && (forall k :: k in doc ==> AllowedKey(k))
    && doc["gameMetaURL"].JStr? && VersionQualified(doc["gameMetaURL"].s)
    && doc["moves"].JArr? && doc["states"].JArr? && doc["stateTimes"].JArr?
    && 1 <= |doc["states"].elems|
    && |doc["states"].elems| == |doc["stateTimes"].elems|
    && |doc["states"].elems| == |doc["moves"].elems| + 1
  }

  /** The second half of the checks, given the moves, the number of states
      and the state times: players, errors, reasonable sorted times and the
      signature rule. */
  predicate ContentConsistent(doc: JObject, moves: seq<JValue>, states: nat, times: seq<JValue>,
                              now: int, verify: SignatureVerifier)
  {
    && PlayersConsistent(doc, moves)
    && ErrorsConsistent(doc, states, moves)
    && "startTime" in doc && doc["startTime"].JNum? && IsReasonableTime(doc["startTime"].n, now)
    && TimesConsistent(doc["startTime"].n, times, now)
    && SignatureConsistent(doc, verify)
  }

  /** Everything `performInternalConsistencyChecks` demands of one version of a match. */
  predicate Consistent(doc: JObject, now: int, verify: SignatureVerifier)
  {
    && Structured(doc)
    && ContentConsistent(doc, doc["moves"].elems, |doc["states"].elems|, doc["stateTimes"].elems, now, verify)
  }

  /** The first eleven steps of `performInternalConsistencyChecks`, in order,
      with the null scan as evidently intended. */
  function StructureChecks(doc: JObject): (r: Check)
    ensures r.Ok? <==> Structured(doc)
  {
    var _ :- NoNulls(doc);
    ShapeChecks(doc)
  }

  /** The first eleven steps with the null scan as written, which passes
      every match document. */
  function StructureChecksAsWritten(doc: JObject): (r: Check)
    ensures r.Ok? <==> Shaped(doc)
  {
    var _ :- NoNullsAsWritten(JObj(doc), "theMatchJSON");
    ShapeChecks(doc)
  }

  /** The steps after the null scan: required fields, allowed keys, the game
      URL and the lengths of the three arrays. */
  function ShapeChecks(doc: JObject): (r: Check)
    ensures r.Ok? <==> Shaped(doc)
  {
    var _ :- RequireFields(doc, RequiredFields);
    var _ :- AllowedKeys(doc);
    var url :- Parsed(GetString(doc, "gameMetaURL"));
    var _ :- Need(VersionQualified(url), UnversionedGameUrl);
    var moves :- Parsed(GetArray(doc, "moves"));
    var states :- Parsed(GetArray(doc, "states"));
    var times :- Parsed(GetArray(doc, "stateTimes"));
    var _ :- Need(1 <= |states|, NoInitialState);
    var _ :- Need(|states| == |times|, StateTimesMismatch(|states|, |times|));
    Need(|states| == |moves| + 1, MovesMismatch(|states|, |moves|))
  }

  /** The remaining steps of `performInternalConsistencyChecks`, in order. */
  function ContentChecks(doc: JObject, moves: seq<JValue>, states: nat, times: seq<JValue>,
                         now: int, verify: SignatureVerifier): (r: Check)
    ensures r.Ok? <==> ContentConsistent(doc, moves, states, times, now, verify)
  {
    var _ :- PlayerChecks(doc, moves);
    var _ :- ErrorChecks(doc, states, moves);
    var start :- Parsed(GetLong(doc, "startTime"));
    var _ :- ReasonableTime(start, now);
    var _ :- TimeSequence(times, 0, start, now);
    SignatureChecks(doc, verify)
  }

  /** `performInternalConsistencyChecks`, with the null scan as evidently intended. */
  function ConsistencyChecks(doc: JObject, now: int, verify: SignatureVerifier): (r: Check)
    ensures r.Ok? <==> Consistent(doc, now, verify)
  {
    var _ :- StructureChecks(doc);
    ContentChecks(doc, doc["moves"].elems, |doc["states"].elems|, doc["stateTimes"].elems, now, verify)
  }

  /** `performInternalConsistencyChecks` as written: everything but the
      absence of nulls inside the document's objects. */
  function ConsistencyChecksAsWritten(doc: JObject, now: int, verify: SignatureVerifier): (r: Check)
    ensures r.Ok? <==>
      && Shaped(doc)
      && ContentConsistent(doc, doc["moves"].elems, |doc["states"].elems|, doc["stateTimes"].elems, now, verify)
  {
    var _ :- StructureChecksAsWritten(doc);
    ContentChecks(doc, doc["moves"].elems, |doc["states"].elems|, doc["stateTimes"].elems, now, verify)
  }

  /** The two revisions of the consistency check differ in the null scan
      alone: the corrected one accepts exactly the null-free documents the
      one as written accepts. */
  lemma CorrectedScanOnlyAddsNullFreedom(doc: JObject, now: int, verify: SignatureVerifier)
    ensures ConsistencyChecks(doc, now, verify).Ok?
        <==> NullFree(JObj(doc)) && ConsistencyChecksAsWritten(doc, now, verify).Ok?
  {
  }

  // =======================================================================
  // Properties

  /** The null scan as written never looks inside an object, so any match
      document passes it, whatever nulls it holds. */
  lemma NullScanAsWrittenIgnoresObjects(doc: JObject)
    ensures NoNullsAsWritten(JObj(doc), "theMatchJSON") == Ok(())
  {
  }

  /** A document with a null-valued extension field: the scan as written
      accepts it, the scan as intended rejects it. */
  lemma NullScanCounterexample()
    ensures var doc := map["x-note" := JNull];
      NoNullsAsWritten(JObj(doc), "theMatchJSON").Ok? && NoNulls(doc).Err?
  {
    var doc := map["x-note" := JNull];
    assert Follow(JObj(doc), [Field("x-note")]) == Some(JNull);
  }

  /** Inside arrays both scans agree on direct null elements. */
  lemma NullElementCaughtByBoth(a: seq<JValue>, i: nat)
    requires i < |a| && a[i] == JNull
    ensures NoNullsAsWritten(JArr(a), "theMatchJSON").Err?
    ensures !NullFree(JArr(a))
  {
  }

  /** Accepted state times never run backwards: every time is at least the
      start time and at most any later state's time. */
  lemma {:induction false} TimesNondecreasing(start: int, times: seq<JValue>, now: int, i: nat, j: nat)
    requires TimesConsistent(start, times, now)
    requires i <= j < |times|
    ensures start <= times[i].n <= times[j].n
    decreases j
  {
    if 0 < j {
      if i == j {
        TimesNondecreasing(start, times, now, j - 1, j - 1);
      } else {
        TimesNondecreasing(start, times, now, i, j - 1);
      }
    }
  }

  /** A consistent match has a reasonable start time and state times that are
      reasonable and sorted, each no earlier than the start. */
  lemma ConsistentTimesSorted(doc: JObject, now: int, verify: SignatureVerifier, i: nat, j: nat)
    requires ConsistencyChecks(doc, now, verify).Ok?
    requires i <= j < |doc["stateTimes"].elems|
    ensures doc["startTime"].n <= doc["stateTimes"].elems[i].n <= doc["stateTimes"].elems[j].n
    ensures IsReasonableTime(doc["stateTimes"].elems[j].n, now)
  {
    TimesNondecreasing(doc["startTime"].n, doc["stateTimes"].elems, now, i, j);
  }

  /** A game URL ending in "/v", a version number and a slash is accepted. */
  lemma VersionWithTrailingSlash(prefix: string, version: nat)
    requires version <= IntMax
    ensures VersionQualified(prefix + "/v" + NatText(version) + "/")
  {
    var digits := NatText(version);
    var tail := digits + "/";
    assert tail[..|tail| - 1] == digits;
    ParseIntText(version, IntMin, IntMax);
    VersionTail(prefix, tail);
    assert prefix + "/v" + tail == prefix + "/v" + digits + "/";
  }

  /** The last "/v" of `prefix + "/v" + tail` is the appended one when `tail`
      has no '/' in it. */
  lemma LastVersionMarker(prefix: string, tail: string)
    requires forall i :: 0 <= i < |tail| - 1 ==> tail[i] != '/'
    ensures LastIndexOf(prefix + "/v" + tail, "/v") == Some(|prefix|)
  {
    var url := prefix + "/v" + tail;
    var p := |prefix|;
    assert url[p..p + 2] == "/v";
    forall j: nat | p < j <= |url| ensures !OccursAt(url, "/v", j) {
      if j + 2 <= |url| {
        if j == p + 1 {
          assert url[j] == 'v';
        } else {
          assert url[j] == tail[j - p - 2];
        }
        assert url[j..j + 2][0] == url[j];
      }
    }
    LastIndexOfIsLast(url, "/v", p);
  }

  /** The code drops the character after the version number, so a URL that ends
      right after a one-character version ("/v1") is refused. */
  lemma SingleCharacterVersionRejected(prefix: string, c: char)
    requires c != '/'
    ensures !VersionQualified(prefix + "/v" + [c])
  {
    LastVersionMarker(prefix, [c]);
    var suffix := (prefix + "/v" + [c])[|prefix|..];
    assert suffix[2..|suffix| - 1] == [];
  }

  /** ... and a multi-digit version without a trailing slash is read without its
      last digit, so "/v12" passes as version 1. */
  lemma MultiDigitVersionReadsWithoutLastDigit(prefix: string, version: nat)
    requires 10 <= version && version / 10 <= IntMax
    ensures VersionQualified(prefix + "/v" + NatText(version))
  {
    var digits := NatText(version);
    assert digits == NatText(version / 10) + [DigitChar(version % 10)];
    assert digits[..|digits| - 1] == NatText(version / 10);
    ParseIntText(version / 10, IntMin, IntMax);
    VersionTail(prefix, digits);
  }

  /** A text with no slash before its last character, after the last "/v", qualifies the URL when all but
      its last character parse as an integer. */
  lemma VersionTail(prefix: string, tail: string)
    requires forall i :: 0 <= i < |tail| - 1 ==> tail[i] != '/'
    requires 1 <= |tail| && !Supplementary(tail[|tail| - 1]) && ParseInt(tail[..|tail| - 1]).Some?
    ensures VersionQualified(prefix + "/v" + tail)
  {
    LastVersionMarker(prefix, tail);
    var url := prefix + "/v" + tail;
    var suffix := url[|prefix|..];
    assert suffix == "/v" + tail;
    assert suffix[2..|suffix| - 1] == tail[..|tail| - 1];
  }


  /** A version followed by a character outside the Basic Multilingual Plane
      is refused: cutting one UTF-16 unit leaves half of its surrogate pair. */
  lemma VersionBeforeSurrogatePairRejected(prefix: string, version: nat, c: char)
    requires Supplementary(c)
    ensures !VersionQualified(prefix + "/v" + NatText(version) + [c])
  {
    var tail := NatText(version) + [c];
    LastVersionMarker(prefix, tail);
    assert prefix + "/v" + NatText(version) + [c] == prefix + "/v" + tail;
  }

  /** A URL with no "/v" at all is refused. */
  lemma UnversionedUrlRejected(url: string)
    requires forall j: nat :: !OccursAt(url, "/v", j)
    ensures !VersionQualified(url)
  {
  }

  /** A host key may never be added to a match after creation. */
  lemma HostKeyMayNotAppear(prev: JObject, next: JObject)
    requires "matchHostPK" !in prev && "matchHostPK" in next
    ensures UpdateInvariantChecks(prev, next).Err?
  {
    assert !Unchanged(prev, next, "matchHostPK");
  }

  /** Every identity field survives an accepted update unchanged. */
  lemma IdentityPreserved(prev: JObject, next: JObject, k: string)
    requires UpdateInvariantChecks(prev, next).Ok?
    requires k in IdentityFields && k in prev
    ensures k in next && next[k] == prev[k]
  {
    assert Unchanged(prev, next, k);
  }

  /** A match once completed stays completed: a later version whose flag reads
      false is refused. */
  lemma CompletedNeverReopens(prev: JObject, next: JObject, parse: SymbolParser)
    requires "isCompleted" in prev && prev["isCompleted"] == JBool(true)
    requires "isCompleted" in next && next["isCompleted"] == JBool(false)
    ensures UpdateForwardChecks(prev, next, parse).Err?
  {
    assert !StaysCompleted(prev, next);
  }

  /** Dropping an optional array that the stored version has is refused. */
  lemma DroppedArrayRejected(prev: JObject, next: JObject, parse: SymbolParser, rule: ArrayRule)
    requires rule in ForwardRules && rule.field in prev && rule.field !in next
    ensures UpdateForwardChecks(prev, next, parse).Err?
  {
    assert !KeptForward(rule, parse, prev, next);
  }

  /** Truncating any of the seven tracked arrays is refused. */
  lemma TruncationRejected(prev: JObject, next: JObject, parse: SymbolParser, rule: ArrayRule)
    requires rule in ForwardRules && rule.field in prev && rule.field in next
    requires prev[rule.field].JArr? && next[rule.field].JArr?
    requires |next[rule.field].elems| < |prev[rule.field].elems|
    ensures UpdateForwardChecks(prev, next, parse).Err?
  {
    assert !KeptForward(rule, parse, prev, next);
  }

  /** Which elements compare equal to themselves under a rule: symbol-list
      states that parse, and for the other arrays anything but an object. */
  predicate SelfComparable(rule: ArrayRule, parse: SymbolParser, v: JValue)
  {
    if rule.asSymbolSets then parse(v).Some? else !v.JObj?
  }

  lemma PreservedReflexive(rule: ArrayRule, parse: SymbolParser, v: JValue)
    requires SelfComparable(rule, parse, v)
    ensures Preserved(rule, parse, v, v)
  {
  }

  /** The new version extends the old one's array for `rule`: same length when
      the array may not grow, and the old elements as a prefix. */
  predicate Extends(rule: ArrayRule, parse: SymbolParser, prev: JObject, next: JObject)
  {
    var f := rule.field;
    f in prev ==>
      && f in next && prev[f].JArr? && next[f].JArr?
      && (rule.canExpand || |prev[f].elems| == |next[f].elems|)
      && |prev[f].elems| <= |next[f].elems|
      && next[f].elems[..|prev[f].elems|] == prev[f].elems
      && forall j :: 0 <= j < |prev[f].elems| ==> SelfComparable(rule, parse, prev[f].elems[j])
  }

  /** An update that only appends to the growable arrays, keeps the fixed ones,
      and does not un-complete the match passes the forward checks. */
  lemma AppendOnlyUpdateAccepted(prev: JObject, next: JObject, parse: SymbolParser)
    requires forall rule :: rule in ForwardRules ==> Extends(rule, parse, prev, next)
    requires StaysCompleted(prev, next)
    ensures UpdateForwardChecks(prev, next, parse).Ok?
  {
    forall rule | rule in ForwardRules ensures KeptForward(rule, parse, prev, next) {
      assert Extends(rule, parse, prev, next);
      var f := rule.field;
      if f in prev {
        var oa := prev[f].elems;
        var na := next[f].elems;
        forall j | 0 <= j < |oa| ensures Preserved(rule, parse, oa[j], na[j]) {
          assert na[..|oa|][j] == na[j];
          PreservedReflexive(rule, parse, oa[j]);
        }
      }
    }
  }

  /** States are compared as sets of facts: a state whose facts are listed in
      another order (or with repeats) still counts as the same state. */
  lemma ReorderedStateAccepted(parse: SymbolParser, o: JValue, n: JValue, xs: seq<string>, ys: seq<string>)
    requires parse(o) == Some(xs) && parse(n) == Some(ys)
    requires forall x :: x in xs <==> x in ys
    ensures Preserved(ForwardRules[5], parse, o, n)
  {
    assert (set x | x in xs) == (set y | y in ys);
  }

  /** Moves rows are compared by their exact text: a reordered row is refused. */
  lemma ChangedMoveRowRejected(parse: SymbolParser, o: JValue, n: JValue)
    requires o.JArr? && o != n
    ensures !Preserved(ForwardRules[3], parse, o, n)
  {
  }

  /** Java counts a token's length in UTF-16 units: six characters outside
      the Basic Multilingual Plane make a token long enough. */
  lemma SurrogatePairTokenLongEnough(now: int, token: string)
    requires GalaxyEpoch <= now && |token| == 6
    requires forall i :: 0 <= i < |token| ==> Supplementary(token[i])
    ensures CreationChecks(map["startTime" := JNum(GalaxyEpoch), "randomToken" := JStr(token)], now) == Ok(())
  {
  }

  /** A creation request whose token is shorter than twelve characters is refused. */
  lemma ShortTokenRejected(now: int)
    requires GalaxyEpoch <= now
    ensures CreationChecks(map["startTime" := JNum(GalaxyEpoch), "randomToken" := JStr("abc")], now)
      == Err(TokenTooShort)
  {
  }
}
